=== FILE: README.md ===
# ic_dependencies workspace, modelled in Dafny

`ic_dependencies.py` manages a workspace of packages. Each package lives in a directory under
`packages/`, and each directory may hold a JSON file that declares the package's dependencies.
A registry (`package_db`) maps package names to repositories that can be cloned.

The `Workspace` class does three things:

- It classifies every dependency that is not a package. Such a name is *missing* if the
  registry knows it and *unknown* if it does not.
- It clones missing packages until nothing is missing.
- It computes an include order for the generated `CMakeLists.txt`: a topological order of
  the packages, or a cycle signal.

The project has five modules:

- `Collections` (collections.dfy): sequence and set helpers.
  - `NewKeys` gives the key order a Python dict gains from a series of assignments.
  - `Enumerate` lists a set in an arbitrary order.
- `Ordering` (ordering.dfy): the ordering pass of `_build_graph`.
  - `TopoSort` is a pure specification over a key order and a `map`.
  - The methods that implement it: `DiscardFromAll`, `DiscardAll`, `FindReady`, `Sort`.
  - Soundness and completeness lemmas, and the lemmas behind the shallow-copy finding.
- `BuildFile` (buildfile.dfy): the lines `write_cmakelists` writes.
- `IcDependencies` (workspace.dfy): the class `Workspace`.
  - Its fields are the source's state: `packages` with its insertion order `keyOrder`,
    `missing`, `unknown`, `includeOrder` and `circular`.
  - The registry is `packageDb`.
  - Two oracles stand in for the file system:
    - `depsFiles`: the declaration files;
    - `onDisk`: every name under `packages/`, directory or not, which is what `path.exists`
      answers.
  - The methods of the source that change the workspace are methods of the class, with
    `modifies` clauses, and each of their loops is a loop with invariants. `scan` is the
    method `Scan`, which takes its listing as a parameter. `write_cmakelists` only reads the
    workspace; it is the function `BuildFile.Render` of the include order and the cycle flag.
  - `Resolve` is the package set the fetch loop of `add_packages` ends with, as a function of
    the packages and the missing names, with lemmas saying what it holds and what it leaves out.
- `RawRecords` (rawrecords.dfy): the records `_read_package_deps` returns as written, with the
  list `[]` for a package without a declaration file, and `_build_graph` run over them.
  - Lemmas relate this pass to the model's pass, which reads a missing file as the empty set.

Iteration over a Python set visits its elements in an unspecified order. The model picks
elements with `:|`, so every contract holds for every visiting order.

## Model

| member | source | states |
|---|---|---|
| IcDependencies.Workspace.Init | ic_dependencies.py:37-56 | After `init`, the packages are exactly the scanned directories `dirs`, in first-occurrence order, each holding its declared dependencies. `onDisk` is every entry under `packages/`. Every non-package dependency is missing if the registry knows it and unknown otherwise. `circular` tells whether the pass found a cycle, and `includeOrder` is the pass's order, or empty on a cycle. |
| IcDependencies.Workspace.Scan | ic_dependencies.py:79-84 | On a fresh workspace, the packages are exactly the listed directories, in first-occurrence order. Every dependency that is not a package is classified: missing if the registry knows it, unknown otherwise. |
| IcDependencies.Workspace.UpdateDepsFor | ic_dependencies.py:86-102 | Installs the records of the listed names and keeps every existing record. New keys go to the end of the key order. Afterwards every dependency that is not a package is classified. `missing` is the old missing set plus the non-package dependencies, restricted to registry names; the rest go into `unknown`. `missing` stays inside the registry and disjoint from `unknown`. |
| IcDependencies.Workspace.InstallRecords | ic_dependencies.py:87-88 | The keys grow by exactly the listed names. The key order gains each new name once, in first-occurrence order. Every record equals its declaration. |
| IcDependencies.Workspace.InstallRecord | ic_dependencies.py:88 | One dict assignment. A new key is appended to the key order; an existing key keeps its place. |
| IcDependencies.Workspace.CollectMissing | ic_dependencies.py:90-93 | `missing` grows by exactly the dependencies that are not package keys. |
| IcDependencies.Workspace.MoveUnknown | ic_dependencies.py:95-102 | Missing names outside the registry move to `unknown`. Registry names stay missing. |
| IcDependencies.Workspace.ClonePackages | ic_dependencies.py:104-120 | Names outside the registry are skipped and stay missing. Registry names with nothing under `packages/` are cloned, and exactly those are returned. Every registry name listed leaves `missing`. |
| IcDependencies.Workspace.BuildGraph | ic_dependencies.py:122-144 | The pass over the current records with unknown names discarded. On success the result is a build order of those records with the unknown names discarded: every package once, and each dependency that is a package and not unknown placed before its dependent. An unknown name that is also a package is not ordered before its dependents; see Findings. |
| IcDependencies.Workspace.Reorder | ic_dependencies.py:154-159 | On a cycle `circular` is raised and `includeOrder` is kept. On success `circular` is cleared, and `includeOrder` becomes the new order, a build order of the records with the unknown names discarded. |
| IcDependencies.Workspace.AddPackages | ic_dependencies.py:146-159 | On return nothing is missing. The packages are exactly `Resolve` of the old packages and of the old missing and requested names that do not already exist under `packages/`. The new packages now exist on disk. `unknown` gains exactly the old missing and requested names outside the registry, and the non-package dependencies outside the registry; every non-package dependency is unknown. The key order only grows. With nothing missing or requested, the packages, key order and unknown names stay the same. The ordering result follows Reorder. |
| IcDependencies.Workspace.AddNewPackages | ic_dependencies.py:146-159 | `add_packages` with the request restricted to names that are not yet packages. Nothing is missing on return, the old packages stay, and no unknown name is a package. A successful pass then places each package once and each dependency that is a package before its dependent. |
| IcDependencies.Workspace.MarkNewMissing | ic_dependencies.py:147-148 | `missing` grows by exactly the requested names that are not packages. |
| Ordering.BuildOrderOfPruned | ic_dependencies.py:130-144 | When no discarded name is a package, a build order of the pruned records places each dependency that is a package before its dependent. |
| IcDependencies.UnknownOffKeys | ic_dependencies.py:95-102 | If the fetch loop starts with no unknown or missing name among the packages, and only registry names become packages, it ends with no unknown name among the packages. |
| IcDependencies.RequestedPackageBecomesUnknown | ic_dependencies.py:146-159 | For any three distinct names: directories b, a with b declaring a and a declaring x, the registry {x}, and x declaring nothing once cloned. After `init` and `add_packages([a])` the package a is unknown, the pass succeeds with b, x, a, and b comes before its dependency a. |
| IcDependencies.RequestedPackageAdded | ic_dependencies.py:146-152 | In that run, `add_packages([a])` clones x only, keeps the key order b, a, x and the three records, and leaves a as the only unknown name. |
| IcDependencies.RequestedPackageInit | ic_dependencies.py:37-56 | In that run, `init` makes b and a the packages, in that key order, with x missing and nothing unknown. Its pass reports a cycle, so the include order stays empty. |
| IcDependencies.RequestedPackageInitPass | ic_dependencies.py:134-142 | The pass of that `init` reports a cycle, because a declares the missing x. |
| IcDependencies.RequestedPackageFetch | ic_dependencies.py:149-152 | In that run, the fetch from b, a with a and x missing ends with exactly a, b and x, and leaves no dependency that is not a package. |
| IcDependencies.RequestedPackagePass | ic_dependencies.py:134-142 | Over b, a, x with a discarded from b's record, the pass orders b, x, a. |
| IcDependencies.UnrequestedPackagePass | ic_dependencies.py:134-142 | Over the same records with nothing discarded, the pass orders x, a, b, which is what `add_packages([])` gives. |
| IcDependencies.PassAfterDependency | ic_dependencies.py:134-142 | Over p then d, with p declaring d and d declaring nothing, the pass orders d before p. |
| IcDependencies.RequestedPackageMisordered | ic_dependencies.py:134-144 | When b declares a, the order b, x, a places b before its dependency a, so it is not a build order of the packages. |
| IcDependencies.Workspace.MarkMissing | ic_dependencies.py:147-148 | `missing` grows by exactly the requested names. |
| IcDependencies.Workspace.FetchMissing | ic_dependencies.py:149-152 | The loop ends with nothing missing. The packages are exactly `Resolve` of the old packages and the missing names that do not already exist under `packages/`. The new packages now exist on disk. `unknown` gains exactly the names that were missing outside the registry and the non-package dependencies outside the registry. The key order only grows. With nothing missing at the start, the packages, key order and unknown names stay the same. |
| IcDependencies.Workspace.FetchLoop | ic_dependencies.py:149-152 | The `while self._missing` loop, given the names under `packages/` that are not packages and the set `r` that `Resolve` reaches. It ends with nothing missing, with `r` as the packages, and with `unknown` and `onDisk` as in FetchMissing. |
| IcDependencies.Workspace.TrackedRound | ic_dependencies.py:150-152 | One iteration keeps every loop invariant, including the final package set `r`. It decreases the termination measure: the registry names still to fetch, then the phase. |
| IcDependencies.Workspace.FetchRound | ic_dependencies.py:150-152 | One round: the packages gain exactly the missing registry names with nothing under `packages/`, and these now exist on disk. `missing` becomes exactly the registry names among the non-package dependencies. `unknown` gains the missing names and non-package dependencies outside the registry. The key order only grows. |
| IcDependencies.ResolveBounds | ic_dependencies.py:149-152 | The loop keeps every package and clones every missing registry name. Everything it adds is a registry name. |
| IcDependencies.ResolveLeast | ic_dependencies.py:149-152 | The loop adds nothing it does not need. Any package set that holds the packages and the missing registry names, and every registry name its own packages declare, holds the result. |
| IcDependencies.ResolveClosed | ic_dependencies.py:149-152 | After the loop has run, every registry name a package declares is a package. |
| IcDependencies.FetchRoundResolve | ic_dependencies.py:149-152 | When the loop is to end, one round keeps the final package set and decreases the termination measure. |
| IcDependencies.FetchStuck | ic_dependencies.py:111-119 | A registry name that a package declares, and that exists under `packages/` without being a package, is neither cloned nor made a package, and is missing again after the round. The loop then never ends. |
| IcDependencies.NonKeyDepsGrow | ic_dependencies.py:90-93 | Packages only gain registry names and keep their records. A non-package dependency outside the registry therefore stays one. |
| IcDependencies.Resolve | ic_dependencies.py:149-152 | The package set the fetch loop ends with. It holds the packages and the missing registry names, and adds registry names only (ResolveBounds). It lies inside every set that holds them and is closed under declared registry names (ResolveLeast). It is itself closed (ResolveClosed). |
| IcDependencies.Records | ic_dependencies.py:62-70 | The records `_read_package_deps` gives the packages: one per package, the declared set, or the empty set without a declaration file. Their keys are exactly the packages. |
| IcDependencies.Workspace.ReadDeps | ic_dependencies.py:62-70 | The record `_read_package_deps` gives one package, with a missing declaration file read as the empty set. ReadingOfRecords relates this reading to the list `[]` the source returns. |
| IcDependencies.NonKeyDeps | ic_dependencies.py:90-93 | The dependencies `_update_deps_for` collects are never package keys. |
| RawRecords.PassAsWritten | ic_dependencies.py:134-142 | The `while g` loop over the records as read, `[]` included. PassAgrees shows it raises or gives the model's pass, and never raises without a list record. |
| RawRecords.BuildGraphAsWritten | ic_dependencies.py:122-144 | `_build_graph` over the records as read: the unknown names are discarded, then the loop runs. BuildGraphAgrees shows when it raises and that otherwise it gives the model's pass. |
| RawRecords.ReadingOfRecords | ic_dependencies.py:62-70 | Reading the list form as the empty set turns the records as written into the model's records. |
| RawRecords.RmAsWritten | ic_dependencies.py:126-128 | `rm` as written raises exactly when it reaches a list record. Otherwise it discards the name from every record it visits and leaves the others alone. |
| RawRecords.DiscardAllAsWritten | ic_dependencies.py:130-132 | Discarding the unknown names raises exactly when there is one and some record is a list. Otherwise each visited record loses every unknown name. |
| RawRecords.DiscardReading | ic_dependencies.py:130-132 | A discard that does not raise gives the model's pruned records and adds no list record. |
| RawRecords.FirstReadyAsWritten | ic_dependencies.py:135-136 | The pick is the first key whose record is false, `[]` or the empty set. Every earlier record is non-empty. |
| RawRecords.FirstReadyAgrees | ic_dependencies.py:135-136 | The as-written pick is the model's pick over the records read as empty sets. |
| RawRecords.RmStepAgrees | ic_dependencies.py:137-139 | A step of the loop that does not raise leaves the model's remaining graph and no list record. |
| RawRecords.PassAgrees | ic_dependencies.py:134-142 | The loop as written raises, or gives exactly the model's pass over the records read as empty sets. With no list record it never raises. |
| RawRecords.TwoListRecordsRaise | ic_dependencies.py:134-139 | With two packages that have no declaration file, the loop raises at its first `rm`. |
| RawRecords.BuildGraphAgrees | ic_dependencies.py:122-144 | `_build_graph` as written raises, or gives the model's pass with the unknown names discarded. With no list record it never raises. With a list record and an unknown name, it raises while discarding. |
| RawRecords.AsWrittenAgreesWithModel | ic_dependencies.py:62-70 | Over the records the source reads, the pass raises or agrees with the model's pass over `Records`. It agrees whenever every package has a declaration file. |
| RawRecords.MissingFilesBreakPass | ic_dependencies.py:124-140 | Packages x and y, neither with a declaration file: the pass as written raises, while the model's pass orders them x, y. |
| Ordering.Prune | ic_dependencies.py:130-132 | Discarding names from every dependency set keeps the set of packages. |
| Ordering.PruneCompose | ic_dependencies.py:130-132 | Discarding nothing changes nothing. Discarding two batches in turn is the same as discarding their union. |
| Ordering.DiscardFromAll | ic_dependencies.py:126-128 | `rm(dep)` leaves every record without `dep` and otherwise unchanged. |
| Ordering.DiscardAll | ic_dependencies.py:130-132 | Discarding every unknown name gives the pruned graph. |
| Ordering.TopoSort | ic_dependencies.py:134-142 | The specification of the pass: pick the first ready package, delete it and discard it, or report a cycle. It is sound (TopoSortSound) and complete (TopoSortComplete), and it reports a cycle exactly when no build order exists (CyclicIffNoBuildOrder). Sort computes it. |
| Ordering.FirstReady | ic_dependencies.py:135-139 | The index picked is the first package in iteration order with an empty set; every earlier package still has a dependency. |
| Ordering.FindReady | ic_dependencies.py:135-141 | The scan loop finds exactly that index, or reports none. |
| Ordering.KeyOrderAssign | ic_dependencies.py:88 | A dict assignment keeps the key order a distinct listing of the keys. |
| Ordering.KeyOrderWithout | ic_dependencies.py:138 | Deleting the picked key keeps the rest of the key order, in order. |
| Ordering.PassStep | ic_dependencies.py:135-140 | One step of the pass: pick the first ready package, delete it, and discard it from every other set. The rest of the pass runs on what remains. |
| Ordering.Sort | ic_dependencies.py:134-144 | The `while g` loop computes the specification pass `TopoSort`. |
| Ordering.TopoSortSound | ic_dependencies.py:134-144 | A successful pass lists every key exactly once and nothing else. Each dependency that is a key comes before its dependent. |
| Ordering.PrependBuildOrder | ic_dependencies.py:136-139 | A ready package followed by a build order of the rest is a build order. |
| Ordering.BuildOrderWithout | ic_dependencies.py:138-139 | Removing any package from a build order leaves a build order of the remaining graph. |
| Ordering.TopoSortComplete | ic_dependencies.py:134-142 | Whenever some build order exists, the pass does not report a cycle. |
| Ordering.CyclicIffNoBuildOrder | ic_dependencies.py:141-142 | The pass raises exactly when no build order exists. |
| Ordering.DanglingDependencyIsCyclic | ic_dependencies.py:134-142 | A dependency that is neither a package nor discarded (still missing, say) makes the pass report a cycle. |
| Ordering.SelfDependencyIsCyclic | ic_dependencies.py:134-142 | A package that depends on itself makes the pass report a cycle. |
| Ordering.MutualDependencyIsCyclic | ic_dependencies.py:134-142 | Two packages that depend on each other make the pass report a cycle. |
| Ordering.DependencyFirst | ic_dependencies.py:134-144 | Directories b, a with b depending on a are ordered a, b. |
| Ordering.Leftover | ic_dependencies.py:124-139 | The sets a pass over `Prune(packages, unknown)` leaves in a map that shares its sets with `packages`. The keys stay the same, and every set is part of its old set. A pass that reports a cycle leaves some set non-empty. |
| Ordering.OrderedPassEmptiesSets | ic_dependencies.py:124-140 | After a successful pass, every shared dependency set is empty. |
| Ordering.EmptySetsKeepKeyOrder | ic_dependencies.py:134-140 | With every set empty, the pass returns the keys in insertion order. |
| Ordering.SecondPassMisorders | ic_dependencies.py:124 | With the shallow copy, a second pass over b, a (b depending on a) gives b, a, which is not a build order. |
| Collections.NewKeysSpec | ic_dependencies.py:87-88 | The keys a series of assignments adds are exactly the names not already keys, each once. |
| Collections.Enumerate | ic_dependencies.py:150 | `list(self._missing)` lists each element of the set once and nothing else. |
| BuildFile.SubdirectoryOfLine | ic_dependencies.py:77 | An `ADD_SUBDIRECTORY(p)` line reads back as `p`. |
| BuildFile.Lines | ic_dependencies.py:76-77 | One line per package of the include order, in the same order. |
| BuildFile.Render | ic_dependencies.py:72-77 | No file exactly when the last pass found a cycle. Otherwise, one line per entry of the include order, each naming that entry. |
| BuildFile.RenderInjective | ic_dependencies.py:72-77 | Different include orders produce different files. |

## Left out

- File I/O is replaced by parameters:
  - the registry file (`_read_packages_dict`, with its warning when absent; the caller passes an empty map then);
  - the dependency JSON files, as the `depsFiles` map;
  - the write of `CMakeLists.txt`, where `Render` gives the lines without their newlines.
- `scan`'s `makedirs`, `listdir` and `isdir` are left out. `Init` takes the directories as
  `dirs` and every entry under `packages/` as `entries`.
- `Repo.clone_from` and `path.exists` are oracles; `path.exists` is membership in `onDisk`.
  - A clone always succeeds: it creates the directory, and its declaration file is already in
    `depsFiles`.
  - Clone errors, which the source lets propagate, are not modelled.
- `print_status`, `main` with its argument parsing, and every warning or progress print are left
  out as user interface.
- `__init__` is left out. Before `init` the source holds placeholder fields, including
  `_circular = None`. The model has no workspace before `Init`.
- The paths `_root` and `_package_path` are left out; names stand for directories.
- The `packages` of the class hold the empty set for a package without a declaration file. The
  source holds `[]` there; see Findings.
- `BuildGraph` sorts a copy that shares nothing with `packages`. The source's copy is shallow;
  see Findings.
- AddPackages: requires `FetchEnds` of the missing and requested names. Without it the source's
  fetch loop never ends, and a Dafny method must terminate. `FetchEnds` fails when a package the
  loop reaches declares a registry name that exists under `packages/` without being a package,
  such as a regular file. `_clone_packages` then skips the clone and drops the name from
  `missing`, and `_update_deps_for` adds it back (FetchStuck).
- AddPackages: also requires the packages to exist under `packages/`. This holds after `Init`,
  whose directories are among the entries, and every later method keeps it.
- FetchMissing: requires `FetchEnds` of the missing names and the packages under `packages/`,
  for the same reasons.
- FetchLoop: requires the same as FetchMissing, stated on the state the loop starts in.
- FetchRound: requires the packages under `packages/`, and something missing, which is the
  loop's guard.
- The RawRecords pass models one pass over fresh records. The shallow-copy effect between
  passes is covered separately (see Findings).

## Findings

| source | as written | input that shows it | evidently intended | confidence | as-written member | corrected member |
|---|---|---|---|---|---|---|
| ic_dependencies.py:124 | `self.packages.copy()` is shallow, so the discards of the pass also empty the dependency sets stored in `packages`. The next pass of the same run (`init` then `add_packages`, as `main` does for `-a` and `-c`) finds every old package ready and orders them by insertion only. | directories b, a, with b declaring a and a declaring nothing in its declaration file; run `init`, then `add_packages([])`. The first pass gives a, b; the second gives b, a. | Every pass orders by the declared dependencies. | not executed | Ordering.SecondPassMisorders | IcDependencies.Workspace.BuildGraph |
| ic_dependencies.py:147-148 | `add_packages` marks every requested name missing, packages included. `_clone_packages` skips a name outside the registry without dropping it, and `_update_deps_for` then moves it to `unknown`. The pass discards the unknown names from every record, so a package that other packages depend on can be ordered after them. | directories b, a, with b declaring a and a declaring x; the registry {x}; x's declaration file, once cloned, lists nothing. `init` reports a cycle, as x is missing, so no set is emptied. `add_packages(["a"])` then orders b, x, a, while `add_packages([])` orders x, a, b. | Requesting a name that is already a package changes nothing; every dependency that is a package comes before its dependent. | not executed | IcDependencies.RequestedPackageBecomesUnknown | IcDependencies.Workspace.AddNewPackages |
| ic_dependencies.py:67 | A package without a declaration file gets the list `[]`. The first `rm` that reaches that record calls `discard` on a list, which raises `AttributeError`. That is not the `RuntimeError` `init` catches. | directories x, y, neither with a declaration file; `init` picks x, then fails discarding x from y's record. | A missing file means no dependencies: an empty set, which the pass orders like any other record. | not executed | RawRecords.MissingFilesBreakPass | IcDependencies.Workspace.BuildGraph |

=== FILE: buildfile.dfy ===
/**
  * The lines of the generated CMakeLists.txt: one ADD_SUBDIRECTORY entry per
  * package of the include order, in that order. Each line is written followed by
  * a newline; the lines here leave the newline out.
  */
module BuildFile {
  import opened Collections

  const Prefix: string := "ADD_SUBDIRECTORY("
  const Suffix: string := ")"

  /** The entry for one package directory. */
  function Line(p: string): string
  {
    Prefix + p + Suffix
  }

  /** Reads the package name back out of an entry; `None` for any other line. */
  function Subdirectory(line: string): (r: Option<string>)
    ensures r.Some? ==> Line(r.value) == line
  {
    if |line| >= |Prefix| + |Suffix| && line[..|Prefix|] == Prefix && line[|line| - 1..] == Suffix
    then
      var name := line[|Prefix|..|line| - 1];
      assert line == line[..|Prefix|] + name + line[|line| - 1..];
      Some(name)
    else None
  }

  /** An entry reads back as the package it was written for. */
  lemma SubdirectoryOfLine(p: string)
    ensures Subdirectory(Line(p)) == Some(p)
  {
    var line := Line(p);
    assert line[..|Prefix|] == Prefix;
    assert line[|line| - 1..] == Suffix;
    assert line[|Prefix|..|line| - 1] == p;
  }

  /** One entry per package of `order`, in the same order. */
  function Lines(order: seq<string>): (lines: seq<string>)
    ensures |lines| == |order|
    ensures forall i :: 0 <= i < |order| ==> Subdirectory(lines[i]) == Some(order[i])
  {
    if order == [] then []
    else
      SubdirectoryOfLine(order[0]);
      [Line(order[0])] + Lines(order[1..])
  }

  /**
    * The file `write_cmakelists` produces: nothing at all (the file is not written)
    * when the last ordering pass found a cycle, otherwise the entries of the include
    * order.
    */
  function Render(circular: bool, includeOrder: seq<string>): (file: Option<seq<string>>)
    ensures file.None? <==> circular
    ensures file.Some? ==> |file.value| == |includeOrder|
    ensures file.Some? ==> forall i :: 0 <= i < |includeOrder| ==> Subdirectory(file.value[i]) == Some(includeOrder[i])
  {
    if circular then None else Some(Lines(includeOrder))
  }

  /** Two different include orders never produce the same file. */
  lemma RenderInjective(o1: seq<string>, o2: seq<string>)
    requires Render(false, o1) == Render(false, o2)
    ensures o1 == o2
  {
    var lines := Lines(o1);
    assert |o1| == |o2|;
    forall i | 0 <= i < |o1|
      ensures o1[i] == o2[i]
    {
      assert Subdirectory(lines[i]) == Some(o1[i]) && Subdirectory(lines[i]) == Some(o2[i]);
    }
  }
}

=== FILE: collections.dfy ===
/** Sequence and set helpers shared by the ordering engine and the workspace. */
module Collections {

  /** A value that may be absent. */
  datatype Option<T> = None | Some(value: T)

  /** No name occurs twice in `s`. */
  predicate Distinct(s: seq<string>)
  {
    forall i, j :: 0 <= i < j < |s| ==> s[i] != s[j]
  }

  /** `s` without its element at index `i`; the relative order of the rest is kept. */
  function RemoveAt(s: seq<string>, i: nat): seq<string>
    requires i < |s|
  {
    s[..i] + s[i + 1..]
  }

  /** Where the element at index `j` of `RemoveAt(s, i)` came from in `s`. */
  lemma RemoveAtIndex(s: seq<string>, i: nat, j: nat)
    requires i < |s| && j < |s| - 1
    ensures |RemoveAt(s, i)| == |s| - 1
    ensures RemoveAt(s, i)[j] == if j < i then s[j] else s[j + 1]
  {
  }

  /** Removing one element of a distinct sequence keeps it distinct and drops exactly that name. */
  lemma RemoveAtDistinct(s: seq<string>, i: nat)
    requires i < |s| && Distinct(s)
    ensures Distinct(RemoveAt(s, i))
    ensures forall x :: x in RemoveAt(s, i) <==> x in s && x != s[i]
  {
    var r := RemoveAt(s, i);
    forall a, b | 0 <= a < b < |r|
      ensures r[a] != r[b]
    {
      RemoveAtIndex(s, i, a);
      RemoveAtIndex(s, i, b);
    }
    forall x
      ensures x in r <==> x in s && x != s[i]
    {
      if x in r {
        var a :| 0 <= a < |r| && r[a] == x;
        RemoveAtIndex(s, i, a);
      }
      if x in s && x != s[i] {
        var a :| 0 <= a < |s| && s[a] == x;
        if a < i {
          RemoveAtIndex(s, i, a);
        } else {
          RemoveAtIndex(s, i, a - 1);
        }
      }
    }
  }

  /**
    * A name before position `j` of `RemoveAt(s, k)`, in terms of `s`: anything other
    * than `s[k]` that occurs before the matching position of `s`.
    */
  lemma RemoveAtKeepsEarlier(s: seq<string>, k: nat, j: nat, d: string)
    requires k < |s| && j < |s| - 1
    requires d in s[..if j < k then j else j + 1] && d != s[k]
    ensures d in RemoveAt(s, k)[..j]
  {
    var jj := if j < k then j else j + 1;
    var t :| 0 <= t < jj && s[t] == d;
    if t < k {
      RemoveAtIndex(s, k, t);
      assert RemoveAt(s, k)[t] == d;
    } else {
      RemoveAtIndex(s, k, t - 1);
      assert RemoveAt(s, k)[t - 1] == d;
    }
  }

  /**
    * The keys a Python dict gains when `names` are assigned into it one after the
    * other while it already holds `known`: each new name once, in the order of its
    * first occurrence.
    */
  function NewKeys(names: seq<string>, known: set<string>): seq<string>
  {
    if names == [] then []
    else
      var front := names[..|names| - 1];
      var last := names[|names| - 1];
      var r0 := NewKeys(front, known);
      if last in known || last in r0 then r0 else r0 + [last]
  }

  /** The new keys are exactly the names not already known, each once. */
  lemma {:induction false} NewKeysSpec(names: seq<string>, known: set<string>)
    ensures Distinct(NewKeys(names, known))
    ensures forall x :: x in NewKeys(names, known) <==> x in names && x !in known
  {
    if names != [] {
      var front := names[..|names| - 1];
      NewKeysSpec(front, known);
      assert names == front + [names[|names| - 1]];
    }
  }

  /** One more name adds it at the end when it is new, and nothing otherwise. */
  lemma NewKeysPrefix(names: seq<string>, i: nat, known: set<string>)
    requires i < |names|
    ensures NewKeys(names[..i + 1], known)
            == if names[i] in known || names[i] in NewKeys(names[..i], known)
               then NewKeys(names[..i], known)
               else NewKeys(names[..i], known) + [names[i]]
  {
    assert names[..i + 1][..i] == names[..i];
  }

  /** Lists a set, each element once, in an unspecified order: iterating over a Python set. */
  method Enumerate(s: set<string>) returns (r: seq<string>)
    ensures Distinct(r)
    ensures Elems(r) == s
  {
    r := [];
    var rest := s;
    while rest != {}
      invariant rest <= s
      invariant Distinct(r)
      invariant forall x :: x in r <==> x in s && x !in rest
      decreases rest
    {
      var x :| x in rest;
      r := r + [x];
      rest := rest - {x};
    }
  }

  /** The names `s` lists. */
  function Elems(s: seq<string>): set<string>
  {
    set x | x in s
  }

  /** One more element of the prefix adds exactly that element. */
  lemma ElemsPrefix(s: seq<string>, i: nat)
    requires i < |s|
    ensures Elems(s[..i + 1]) == Elems(s[..i]) + {s[i]}
  {
    assert s[..i + 1] == s[..i] + [s[i]];
  }

  /** A subset is no larger, and a subset missing a witness `w` is strictly smaller. */
  lemma SubsetCard(a: set<string>, b: set<string>, w: string)
    requires a <= b
    ensures |a| <= |b|
    ensures w in b && w !in a ==> |a| < |b|
  {
    var d := b - a;
    assert b == a + d && a * d == {};
    if w in b && w !in a {
      assert w in d;
    }
  }
}

=== FILE: ordering.dfy ===
/**
  * The ordering pass of the workspace: a repeated-scan topological sort over a
  * dependency graph whose keys are kept in Python dict insertion order.
  */
module Ordering {
  import opened Collections

  /** Package name to the set of names it depends on. */
  type Graph = map<string, set<string>>

  /** The result of one ordering pass: a build order, or the cycle signal (no partial order). */
  datatype Outcome = Ordered(order: seq<string>) | Cyclic

  /** `ks` lists every key of `g` exactly once: the iteration order of the dict `g`. */
  ghost predicate KeyOrder<V>(ks: seq<string>, g: map<string, V>)
  {
    Distinct(ks) && forall k :: k in ks <==> k in g
  }

  /** `g` with the names in `drop` discarded from every dependency set. */
  function Prune(g: Graph, drop: set<string>): (r: Graph)
    ensures r.Keys == g.Keys
  {
    map k | k in g :: g[k] - drop
  }

  /** Discarding names from the dependency sets keeps the key order. */
  lemma KeyOrderPrune(ks: seq<string>, g: Graph, drop: set<string>)
    requires KeyOrder(ks, g)
    ensures KeyOrder(ks, Prune(g, drop))
  {
  }

  /** Discarding nothing changes nothing; discarding twice is discarding the union. */
  lemma PruneCompose(g: Graph, a: set<string>, b: set<string>)
    ensures Prune(g, {}) == g
    ensures Prune(Prune(g, a), b) == Prune(g, a + b)
  {
    assert forall k :: k in g ==> g[k] - {} == g[k];
    assert forall k :: k in g ==> g[k] - a - b == g[k] - (a + b);
  }

  /** `g` after `del g[p]` followed by discarding `p` from every remaining set. */
  function Without(g: Graph, p: string): Graph
  {
    map k | k in g && k != p :: g[k] - {p}
  }

  /** Puts `done` in front of an outcome; a cycle stays a cycle. */
  function Prepend(done: seq<string>, r: Outcome): Outcome
  {
    match r
    case Ordered(rest) => Ordered(done + rest)
    case Cyclic => Cyclic
  }

  /**
    * The index of the first key, in iteration order, whose remaining set is empty,
    * or |ks| when there is none.
    */
  function FirstReady(ks: seq<string>, g: Graph): (i: nat)
    requires forall k :: k in ks ==> k in g
    ensures i <= |ks|
    ensures i < |ks| ==> g[ks[i]] == {}
    ensures forall j :: 0 <= j < i ==> g[ks[j]] != {}
  {
    if ks == [] then 0
    else if g[ks[0]] == {} then 0
    else 1 + FirstReady(ks[1..], g)
  }

  /** Assigning a key keeps the key order when a new key is appended at the end. */
  lemma KeyOrderAssign(ks: seq<string>, g: Graph, p: string, v: set<string>)
    requires KeyOrder(ks, g)
    ensures KeyOrder(if p in g then ks else ks + [p], g[p := v])
  {
  }

  /** After one round, the remaining keys still list the remaining graph. */
  lemma KeyOrderWithout(ks: seq<string>, g: Graph, i: nat)
    requires KeyOrder(ks, g) && i < |ks|
    ensures KeyOrder(RemoveAt(ks, i), Without(g, ks[i]))
  {
    RemoveAtDistinct(ks, i);
  }

  /**
    * The ordering pass: pick the first ready package, append it, delete it and
    * discard it from every other set; report a cycle when no package is ready.
    */
  function TopoSort(ks: seq<string>, g: Graph): Outcome
    requires KeyOrder(ks, g)
    decreases |ks|
  {
    if ks == [] then Ordered([])
    else
      var i := FirstReady(ks, g);
      if i == |ks| then Cyclic
      else
        KeyOrderWithout(ks, g, i);
        Prepend([ks[i]], TopoSort(RemoveAt(ks, i), Without(g, ks[i])))
  }

  /**
    * `o` is a build order for `g`: every key exactly once, nothing else, and every
    * dependency of a package strictly before it.
    */
  ghost predicate IsBuildOrder(o: seq<string>, g: Graph)
  {
    && Distinct(o)
    && (forall x :: x in o <==> x in g)
    && (forall j :: 0 <= j < |o| ==> o[j] in g && forall d :: d in g[o[j]] ==> d in o[..j])
  }

  /**
    * `o` orders the packages of `g`: every key exactly once, nothing else, and every
    * dependency that is itself a package strictly before its dependent.
    */
  ghost predicate PackageOrder(o: seq<string>, g: Graph)
  {
    && Distinct(o)
    && (forall x :: x in o <==> x in g)
    && (forall j :: 0 <= j < |o| ==> o[j] in g && forall d :: d in g[o[j]] && d in g ==> d in o[..j])
  }

  /**
    * A build order of `g` with the names `drop` discarded orders the packages of `g`,
    * provided no discarded name is a package.
    */
  lemma BuildOrderOfPruned(o: seq<string>, g: Graph, drop: set<string>)
    requires IsBuildOrder(o, Prune(g, drop)) && drop !! g.Keys
    ensures PackageOrder(o, g)
  {
    forall j, d | 0 <= j < |o| && d in g[o[j]] && d in g
      ensures d in o[..j]
    {
      assert d in Prune(g, drop)[o[j]];
    }
  }

  /** A ready package followed by a build order of the rest is a build order. */
  lemma PrependBuildOrder(g: Graph, p: string, rest: seq<string>)
    requires p in g && g[p] == {}
    requires IsBuildOrder(rest, Without(g, p))
    ensures IsBuildOrder([p] + rest, g)
  {
    var g' := Without(g, p);
    var o := [p] + rest;
    forall a, b | 0 <= a < b < |o|
      ensures o[a] != o[b]
    {
      if a == 0 {
        assert o[b] == rest[b - 1] && o[b] in g';
      }
    }
    forall x
      ensures x in o <==> x in g
    {
      assert x in o <==> x == p || x in rest;
    }
    forall j | 0 <= j < |o|
      ensures o[j] in g && forall d :: d in g[o[j]] ==> d in o[..j]
    {
      if j > 0 {
        var q := o[j];
        assert q == rest[j - 1] && q in g';
        assert o[..j] == [p] + rest[..j - 1];
        forall d | d in g[q]
          ensures d in o[..j]
        {
          if d != p {
            assert d in g'[q];
          }
        }
      }
    }
  }

  /** Soundness: an order the pass returns is a build order. */
  lemma {:induction false} TopoSortSound(ks: seq<string>, g: Graph)
    requires KeyOrder(ks, g)
    ensures TopoSort(ks, g).Ordered? ==> IsBuildOrder(TopoSort(ks, g).order, g)
    ensures TopoSort(ks, g).Ordered? ==> |TopoSort(ks, g).order| == |ks|
    decreases |ks|
  {
    if ks != [] {
      var i := FirstReady(ks, g);
      if i < |ks| {
        var p := ks[i];
        var ks', g' := RemoveAt(ks, i), Without(g, p);
        KeyOrderWithout(ks, g, i);
        TopoSortSound(ks', g');
        var r' := TopoSort(ks', g');
        assert TopoSort(ks, g) == Prepend([p], r');
        if r'.Ordered? {
          PrependBuildOrder(g, p, r'.order);
        }
      }
    }
  }

  /** Removing any package from a build order, and discarding it from every set, leaves a build order of what is left. */
  lemma BuildOrderWithout(o: seq<string>, g: Graph, k: nat)
    requires IsBuildOrder(o, g) && k < |o|
    ensures IsBuildOrder(RemoveAt(o, k), Without(g, o[k]))
  {
    var p := o[k];
    var o', g' := RemoveAt(o, k), Without(g, p);
    RemoveAtDistinct(o, k);
    forall j | 0 <= j < |o'|
      ensures o'[j] in g' && forall d :: d in g'[o'[j]] ==> d in o'[..j]
    {
      RemoveAtIndex(o, k, j);
      var jj := if j < k then j else j + 1;
      var q := o'[j];
      assert o[jj] == q;
      forall d | d in g'[q]
        ensures d in o'[..j]
      {
        RemoveAtKeepsEarlier(o, k, j, d);
      }
    }
  }

  /** Completeness: when a build order exists, the pass does not report a cycle. */
  lemma {:induction false} TopoSortComplete(ks: seq<string>, g: Graph, o: seq<string>)
    requires KeyOrder(ks, g) && IsBuildOrder(o, g)
    ensures TopoSort(ks, g).Ordered?
    decreases |ks|
  {
    if ks != [] {
      assert ks[0] in g && ks[0] in o;
      assert o[0] in g && g[o[0]] == {} by {
        assert o[..0] == [];
      }
      var m :| 0 <= m < |ks| && ks[m] == o[0];
      var i := FirstReady(ks, g);
      assert i <= m;
      var p := ks[i];
      assert p in g && p in o;
      var k :| 0 <= k < |o| && o[k] == p;
      KeyOrderWithout(ks, g, i);
      BuildOrderWithout(o, g, k);
      TopoSortComplete(RemoveAt(ks, i), Without(g, p), RemoveAt(o, k));
    }
  }

  /** The pass signals a cycle exactly when the graph has no build order at all. */
  lemma CyclicIffNoBuildOrder(ks: seq<string>, g: Graph)
    requires KeyOrder(ks, g)
    ensures TopoSort(ks, g).Cyclic? <==> !exists o :: IsBuildOrder(o, g)
  {
    if exists o :: IsBuildOrder(o, g) {
      var o :| IsBuildOrder(o, g);
      TopoSortComplete(ks, g, o);
    } else {
      TopoSortSound(ks, g);
    }
  }

  /** A dependency that is not a key can never be discarded, so its dependent blocks the pass. */
  lemma DanglingDependencyIsCyclic(ks: seq<string>, g: Graph, p: string, d: string)
    requires KeyOrder(ks, g)
    requires p in g && d in g[p] && d !in g
    ensures TopoSort(ks, g) == Cyclic
  {
    TopoSortSound(ks, g);
  }

  /** A package that depends on itself is never ready. */
  lemma SelfDependencyIsCyclic(ks: seq<string>, g: Graph, p: string)
    requires KeyOrder(ks, g)
    requires p in g && p in g[p]
    ensures TopoSort(ks, g) == Cyclic
  {
    TopoSortSound(ks, g);
  }

  /** Two packages that depend on each other are never ordered. */
  lemma MutualDependencyIsCyclic(ks: seq<string>, g: Graph, a: string, b: string)
    requires KeyOrder(ks, g)
    requires a in g && b in g && b in g[a] && a in g[b]
    ensures TopoSort(ks, g) == Cyclic
  {
    TopoSortSound(ks, g);
  }

  /**
    * The dependency sets a pass leaves behind in a map whose sets it shares: every
    * package it picked has an empty set, and on a cycle the unpicked packages keep
    * what was left of theirs. In `_build_graph` the pass runs on the records with the
    * unknown names already discarded, so `g` is `Prune(packages, unknown)`: the shared
    * sets lose the unknown names too. Every leftover set is part of its old set, and a
    * pass that reports a cycle leaves some set non-empty; `OrderedPassEmptiesSets` is the
    * successful case.
    */
  function Leftover(ks: seq<string>, g: Graph): (r: Graph)
    requires KeyOrder(ks, g)
    ensures r.Keys == g.Keys
    ensures forall k :: k in g ==> r[k] <= g[k]
    ensures TopoSort(ks, g).Cyclic? ==> exists k :: k in g && r[k] != {}
    decreases |ks|
  {
    if ks == [] then g
    else
      var i := FirstReady(ks, g);
      if i == |ks| then g
      else
        KeyOrderWithout(ks, g, i);
        Leftover(RemoveAt(ks, i), Without(g, ks[i]))[ks[i] := {}]
  }

  /** After a pass that orders every package, every shared dependency set is empty. */
  lemma {:induction false} OrderedPassEmptiesSets(ks: seq<string>, g: Graph)
    requires KeyOrder(ks, g)
    requires TopoSort(ks, g).Ordered?
    ensures forall k :: k in g ==> Leftover(ks, g)[k] == {}
    decreases |ks|
  {
    if ks != [] {
      var i := FirstReady(ks, g);
      KeyOrderWithout(ks, g, i);
      OrderedPassEmptiesSets(RemoveAt(ks, i), Without(g, ks[i]));
    }
  }

  /** With every dependency set empty, a pass returns the keys in iteration order. */
  lemma {:induction false} EmptySetsKeepKeyOrder(ks: seq<string>, g: Graph)
    requires KeyOrder(ks, g)
    requires forall k :: k in g ==> g[k] == {}
    ensures TopoSort(ks, g) == Ordered(ks)
    decreases |ks|
  {
    if ks != [] {
      assert [ks[0]] + ks[1..] == ks;
      var g' := Without(g, ks[0]);
      KeyOrderWithout(ks, g, 0);
      assert RemoveAt(ks, 0) == ks[1..];
      EmptySetsKeepKeyOrder(ks[1..], g');
      assert TopoSort(ks, g) == Prepend([ks[0]], TopoSort(ks[1..], g')) by {
        assert ks[0] in g && FirstReady(ks, g) == 0;
      }
    }
  }

  /** The workspace b, a with b depending on a is ordered a, b. */
  lemma DependencyFirst()
    ensures TopoSort(["b", "a"], map["b" := {"a"}, "a" := {}]) == Ordered(["a", "b"])
  {
    var g := map["b" := {"a"}, "a" := {}];
    var ks := ["b", "a"];
    assert FirstReady(ks, g) == 1;
    assert RemoveAt(ks, 1) == ["b"];
    var g1 := Without(g, "a");
    assert g1.Keys == {"b"} && g1["b"] == {};
    assert FirstReady(["b"], g1) == 0;
    assert RemoveAt(["b"], 0) == [];
  }

  /**
    * A second pass over the sets a first pass left behind: the workspace b, a with
    * b depending on a is first ordered a, b, and then b, a, which puts b before
    * its dependency.
    */
  lemma SecondPassMisorders()
    ensures var g := map["b" := {"a"}, "a" := {}];
            && TopoSort(["b", "a"], g) == Ordered(["a", "b"])
            && TopoSort(["b", "a"], Leftover(["b", "a"], g)) == Ordered(["b", "a"])
            && !IsBuildOrder(["b", "a"], g)
  {
    var g := map["b" := {"a"}, "a" := {}];
    var ks := ["b", "a"];
    DependencyFirst();
    OrderedPassEmptiesSets(ks, g);
    EmptySetsKeepKeyOrder(ks, Leftover(ks, g));
    var bad: seq<string> := ["b", "a"];
    assert bad[0] == "b" && "a" in g["b"] && "a" !in bad[..0];
  }

  /** `rm(dep)`: discards `dep` from the dependency set of every key listed in `ks`. */
  method DiscardFromAll(g: Graph, ks: seq<string>, dep: string) returns (g': Graph)
    requires forall k :: k in ks <==> k in g
    ensures g' == Prune(g, {dep})
  {
    g' := g;
    for i := 0 to |ks|
      invariant g'.Keys == g.Keys
      invariant forall k :: k in g' ==> g'[k] == if k in ks[..i] then g[k] - {dep} else g[k]
    {
      g' := g'[ks[i] := g'[ks[i]] - {dep}];
      assert forall k :: k in ks[..i + 1] <==> k in ks[..i] || k == ks[i];
    }
    assert ks[..|ks|] == ks;
  }

  /** The loop over the unknown names in `_build_graph`: `rm(u)` for each of them. */
  method DiscardAll(g: Graph, ks: seq<string>, drop: set<string>) returns (g': Graph)
    requires forall k :: k in ks <==> k in g
    ensures g' == Prune(g, drop)
  {
    g' := g;
    var rest := drop;
    PruneCompose(g, {}, {});
    assert drop - rest == {};
    while rest != {}
      invariant rest <= drop
      invariant g' == Prune(g, drop - rest)
      decreases rest
    {
      var u :| u in rest;
      g' := DiscardFromAll(g', ks, u);
      PruneCompose(g, drop - rest, {u});
      assert drop - rest + {u} == drop - (rest - {u});
      rest := rest - {u};
    }
    assert drop - rest == drop;
  }

  /** The inner scan of `_build_graph`: the first key, in iteration order, whose set is empty. */
  method FindReady(ks: seq<string>, g: Graph) returns (i: nat)
    requires forall k :: k in ks ==> k in g
    ensures i == FirstReady(ks, g)
  {
    i := 0;
    while i < |ks| && g[ks[i]] != {}
      invariant i <= |ks|
      invariant forall j :: 0 <= j < i ==> g[ks[j]] != {}
    {
      i := i + 1;
    }
  }

  /**
    * One round of the pass when the package at `i` is the first ready one: the
    * outcome is that package followed by the outcome on what is left, and
    * `del g[p]` followed by `rm(p)` leaves exactly that rest.
    */
  lemma PassStep(ks: seq<string>, g: Graph, i: nat)
    requires KeyOrder(ks, g) && i < |ks| && i == FirstReady(ks, g)
    ensures KeyOrder(RemoveAt(ks, i), Without(g, ks[i]))
    ensures TopoSort(ks, g) == Prepend([ks[i]], TopoSort(RemoveAt(ks, i), Without(g, ks[i])))
    ensures Prune(map k | k in g && k != ks[i] :: g[k], {ks[i]}) == Without(g, ks[i])
  {
    KeyOrderWithout(ks, g, i);
  }

  /** Prepending twice is prepending the concatenation. */
  lemma PrependTwice(a: seq<string>, b: seq<string>, r: Outcome)
    ensures Prepend(a, Prepend(b, r)) == Prepend(a + b, r)
  {
    if r.Ordered? {
      assert a + (b + r.order) == (a + b) + r.order;
    }
  }

  /**
    * The main loop of `_build_graph`, on a graph whose unknown names are already
    * discarded: the order the specification `TopoSort` gives, or the cycle signal.
    */
  method Sort(ks0: seq<string>, g0: Graph) returns (r: Outcome)
    requires KeyOrder(ks0, g0)
    ensures r == TopoSort(ks0, g0)
  {
    var ks, g := ks0, g0;
    var order := [];
    while ks != []
      invariant KeyOrder(ks, g)
      invariant TopoSort(ks0, g0) == Prepend(order, TopoSort(ks, g))
      decreases |ks|
    {
      var i := FindReady(ks, g);
      if i == |ks| {
        // no package is ready: the cycle signal
        return Cyclic;
      }
      var p := ks[i];
      PassStep(ks, g, i);
      PrependTwice(order, [p], TopoSort(RemoveAt(ks, i), Without(g, p)));
      order := order + [p];
      ks := RemoveAt(ks, i);
      g := map k | k in g && k != p :: g[k];
      g := DiscardFromAll(g, ks, p);
    }
    r := Ordered(order);
  }
}

=== FILE: rawrecords.dfy ===
/**
  * The records `_read_package_deps` returns as written, and `_build_graph` run over them.
  * A package without a declaration file gets the list `[]`, which has no `discard`: the
  * first `rm` that reaches such a record raises. The rest of the model reads a missing
  * file as the empty set; the lemmas here say when the two readings agree.
  */
module RawRecords {
  import opened Collections
  import opened Ordering
  import opened IcDependencies

  /** A record as read: the list `[]` (no declaration file) or the declared set. */
  datatype RawDeps = EmptyList | DeclaredSet(names: set<string>)

  /** Package name to its record as read. */
  type RawGraph = map<string, RawDeps>

  /** How a pass over such records ends: with an outcome, or by raising on a list record. */
  datatype RawOutcome = Finished(outcome: Outcome) | Raised

  /** `_read_package_deps` as written. */
  function ReadDepsAsWritten(files: map<string, set<string>>, p: string): RawDeps
  {
    if p in files then DeclaredSet(files[p]) else EmptyList
  }

  /** The records of the packages `ks`, as read. */
  function RawRecordsOf(files: map<string, set<string>>, ks: set<string>): (g: RawGraph)
    ensures g.Keys == ks
  {
    map p | p in ks :: ReadDepsAsWritten(files, p)
  }

  /** The reading the rest of the model uses: a list record counts as the empty set. */
  function Reading(g: RawGraph): (r: Graph)
    ensures r.Keys == g.Keys
  {
    map k | k in g :: if g[k].EmptyList? then {} else g[k].names
  }

  /** Read as empty sets, the records as written are the records of the model. */
  lemma ReadingOfRecords(files: map<string, set<string>>, ks: set<string>)
    ensures Reading(RawRecordsOf(files, ks)) == Records(files, ks)
  {
    var a, b := Reading(RawRecordsOf(files, ks)), Records(files, ks);
    forall k | k in ks
      ensures a[k] == b[k]
    {
      assert RawRecordsOf(files, ks)[k] == ReadDepsAsWritten(files, k);
    }
  }

  /** `not g[p]`: the empty list and the empty set both count as false. */
  predicate Ready(d: RawDeps)
  {
    d.EmptyList? || d.names == {}
  }

  /** The first key, in iteration order, whose record counts as false; |ks| when none does. */
  function FirstReadyAsWritten(ks: seq<string>, g: RawGraph): (i: nat)
    requires forall k :: k in ks ==> k in g
    ensures i <= |ks|
    ensures i < |ks| ==> Ready(g[ks[i]])
    ensures forall j :: 0 <= j < i ==> !Ready(g[ks[j]])
  {
    if ks == [] then 0
    else if Ready(g[ks[0]]) then 0
    else 1 + FirstReadyAsWritten(ks[1..], g)
  }

  /**
    * `rm(dep)` as written, visiting the keys in the order `ks`: it raises at the first list
    * record; otherwise it discards `dep` from every record it visits and from no other.
    */
  function RmAsWritten(g: RawGraph, ks: seq<string>, dep: string): (r: Option<RawGraph>)
    requires forall k :: k in ks ==> k in g
    ensures r.None? <==> exists k :: k in ks && g[k].EmptyList?
    ensures r.Some? ==> r.value.Keys == g.Keys
    ensures r.Some? ==> forall k :: k in ks ==> r.value[k] == DeclaredSet(g[k].names - {dep})
    ensures r.Some? ==> forall k :: k in g && k !in ks ==> r.value[k] == g[k]
  {
    if ks == [] then Some(g)
    else match g[ks[0]]
      case EmptyList => None
      case DeclaredSet(s) =>
        var g' := g[ks[0] := DeclaredSet(s - {dep})];
        assert forall k :: k in ks[1..] ==> (g'[k].EmptyList? <==> g[k].EmptyList?);
        RmAsWritten(g', ks[1..], dep)
  }

  /** The loop `for u in self._unknown: rm(u)`, the unknown names visited in the order `us`. */
  function DiscardAllAsWritten(g: RawGraph, ks: seq<string>, us: seq<string>): (r: Option<RawGraph>)
    requires forall k :: k in ks ==> k in g
    ensures r.None? <==> us != [] && exists k :: k in ks && g[k].EmptyList?
    ensures r.Some? ==> r.value.Keys == g.Keys
    ensures r.Some? && us != [] ==> forall k :: k in ks ==> r.value[k] == DeclaredSet(g[k].names - Elems(us))
    ensures r.Some? ==> forall k :: k in g && (us == [] || k !in ks) ==> r.value[k] == g[k]
    decreases |us|
  {
    if us == [] then Some(g)
    else match RmAsWritten(g, ks, us[0])
      case None => None
      case Some(g') =>
        assert forall k :: k in ks ==> !g'[k].EmptyList?;
        assert forall x :: x in us <==> x == us[0] || x in us[1..];
        DiscardAllAsWritten(g', ks, us[1..])
  }

  /** Puts `p` in front of a finished outcome; raising stays raising. */
  function PrependAsWritten(p: string, r: RawOutcome): RawOutcome
  {
    match r
    case Finished(o) => Finished(Prepend([p], o))
    case Raised => Raised
  }

  /**
    * The `while g` loop of `_build_graph` as written: pick the first record that counts as
    * false, append its key, delete it, and `rm` that key from every remaining record.
    */
  function PassAsWritten(ks: seq<string>, g: RawGraph): RawOutcome
    requires KeyOrder(ks, g)
    decreases |ks|
  {
    if ks == [] then Finished(Ordered([]))
    else
      var i := FirstReadyAsWritten(ks, g);
      if i == |ks| then Finished(Cyclic)
      else
        var p := ks[i];
        RemoveAtDistinct(ks, i);
        match RmAsWritten(g - {p}, RemoveAt(ks, i), p)
        case None => Raised
        case Some(g') => PrependAsWritten(p, PassAsWritten(RemoveAt(ks, i), g'))
  }

  /** `_build_graph` as written: discard the unknown names `us`, then run the loop. */
  function BuildGraphAsWritten(ks: seq<string>, g: RawGraph, us: seq<string>): RawOutcome
    requires KeyOrder(ks, g)
  {
    match DiscardAllAsWritten(g, ks, us)
    case None => Raised
    case Some(g') => PassAsWritten(ks, g')
  }

  /** The as-written pick and the model's pick are the same index. */
  lemma {:induction false} FirstReadyAgrees(ks: seq<string>, g: RawGraph)
    requires forall k :: k in ks ==> k in g
    ensures FirstReadyAsWritten(ks, g) == FirstReady(ks, Reading(g))
  {
    if ks != [] {
      assert Ready(g[ks[0]]) <==> Reading(g)[ks[0]] == {};
      FirstReadyAgrees(ks[1..], g);
    }
  }

  /**
    * One step of the as-written loop that does not raise removes the picked key, and the
    * records left, read as empty sets, are the model's records after the same step.
    */
  lemma RmStepAgrees(ks: seq<string>, g: RawGraph, i: nat, rest: seq<string>, g': RawGraph)
    requires KeyOrder(ks, g) && i < |ks| && rest == RemoveAt(ks, i)
    requires forall k :: k in rest ==> k in g - {ks[i]}
    requires RmAsWritten(g - {ks[i]}, rest, ks[i]) == Some(g')
    ensures KeyOrder(RemoveAt(ks, i), g')
    ensures Reading(g') == Without(Reading(g), ks[i])
    ensures forall k :: k in g' ==> g'[k].DeclaredSet?
  {
    RemoveAtDistinct(ks, i);
    var p := ks[i];
    var a, b := Reading(g'), Without(Reading(g), p);
    assert g'.Keys == g.Keys - {p};
    forall k | k in g'
      ensures a[k] == b[k] && g'[k].DeclaredSet?
    {
      assert k in RemoveAt(ks, i);
    }
  }

  /**
    * The as-written loop either raises or gives exactly the model's pass over the records
    * read as empty sets; with no list record it never raises.
    */
  lemma {:induction false} PassAgrees(ks: seq<string>, g: RawGraph)
    requires KeyOrder(ks, g)
    ensures PassAsWritten(ks, g).Raised? || PassAsWritten(ks, g) == Finished(TopoSort(ks, Reading(g)))
    ensures (forall k :: k in g ==> g[k].DeclaredSet?) ==> PassAsWritten(ks, g) == Finished(TopoSort(ks, Reading(g)))
    decreases |ks|
  {
    if ks != [] {
      FirstReadyAgrees(ks, g);
      var i := FirstReadyAsWritten(ks, g);
      if i < |ks| {
        var p := ks[i];
        RemoveAtDistinct(ks, i);
        var rest := RemoveAt(ks, i);
        var rm := RmAsWritten(g - {p}, rest, p);
        if (forall k :: k in g ==> g[k].DeclaredSet?) {
          forall k | k in rest
            ensures !(g - {p})[k].EmptyList?
          {
          }
        }
        if rm.Some? {
          var g' := rm.value;
          RmStepAgrees(ks, g, i, rest, g');
          PassAgrees(rest, g');
          PassStep(ks, Reading(g), i);
        }
      }
    }
  }

  /** Two packages without a declaration file make the as-written loop raise at its first `rm`. */
  lemma TwoListRecordsRaise(ks: seq<string>, g: RawGraph, x: string, y: string)
    requires KeyOrder(ks, g)
    requires x != y && x in g && y in g && g[x].EmptyList? && g[y].EmptyList?
    ensures PassAsWritten(ks, g) == Raised
  {
    var jx :| 0 <= jx < |ks| && ks[jx] == x;
    var i := FirstReadyAsWritten(ks, g);
    assert i <= jx;
    var p := ks[i];
    RemoveAtDistinct(ks, i);
    var z := if p == x then y else x;
    assert z in RemoveAt(ks, i) && (g - {p})[z].EmptyList?;
  }

  /**
    * `_build_graph` as written either raises or gives the model's pass over the records
    * read as empty sets with the unknown names discarded. With no list record it never
    * raises; with a list record and an unknown name it raises while discarding.
    */
  lemma BuildGraphAgrees(ks: seq<string>, g: RawGraph, us: seq<string>)
    requires KeyOrder(ks, g)
    ensures var r := BuildGraphAsWritten(ks, g, us);
            r.Raised? || r == Finished(TopoSort(ks, Prune(Reading(g), Elems(us))))
    ensures (forall k :: k in g ==> g[k].DeclaredSet?) ==>
              BuildGraphAsWritten(ks, g, us) == Finished(TopoSort(ks, Prune(Reading(g), Elems(us))))
    ensures us != [] && (exists k :: k in g && g[k].EmptyList?) ==> BuildGraphAsWritten(ks, g, us) == Raised
  {
    var d := DiscardAllAsWritten(g, ks, us);
    if d.Some? {
      DiscardReading(ks, g, us, d.value);
      PassAgrees(ks, d.value);
    }
  }

  /**
    * Discarding the unknown names as written, when it does not raise, gives the pruned
    * reading and leaves no list record behind that was not there before.
    */
  lemma DiscardReading(ks: seq<string>, g: RawGraph, us: seq<string>, g': RawGraph)
    requires KeyOrder(ks, g) && DiscardAllAsWritten(g, ks, us) == Some(g')
    ensures KeyOrder(ks, g')
    ensures Reading(g') == Prune(Reading(g), Elems(us))
    ensures (forall k :: k in g ==> g[k].DeclaredSet?) ==> forall k :: k in g' ==> g'[k].DeclaredSet?
  {
    if us == [] {
      assert Elems(us) == {};
      PruneCompose(Reading(g), {}, {});
    } else {
      forall k | k in g
        ensures Reading(g')[k] == Prune(Reading(g), Elems(us))[k]
      {
        assert k in ks;
      }
    }
  }

  /**
    * The source's pass over the records it reads agrees with the model's pass over
    * `Records` whenever it does not raise, and it does not raise when every package has a
    * declaration file.
    */
  lemma AsWrittenAgreesWithModel(files: map<string, set<string>>, ks: seq<string>, us: seq<string>)
    requires Distinct(ks)
    ensures KeyOrder(ks, RawRecordsOf(files, Elems(ks)))
    ensures var r := BuildGraphAsWritten(ks, RawRecordsOf(files, Elems(ks)), us);
            r.Raised? || r == Finished(TopoSort(ks, Prune(Records(files, Elems(ks)), Elems(us))))
    ensures (forall k :: k in ks ==> k in files) ==>
              BuildGraphAsWritten(ks, RawRecordsOf(files, Elems(ks)), us)
              == Finished(TopoSort(ks, Prune(Records(files, Elems(ks)), Elems(us))))
  {
    var g := RawRecordsOf(files, Elems(ks));
    ReadingOfRecords(files, Elems(ks));
    BuildGraphAgrees(ks, g, us);
  }

  /**
    * Packages x and y, neither with a declaration file: the pass as written raises while
    * the model, reading both as empty sets, orders them x, y.
    */
  lemma MissingFilesBreakPass()
    ensures BuildGraphAsWritten(["x", "y"], RawRecordsOf(map[], {"x", "y"}), []) == Raised
    ensures TopoSort(["x", "y"], Records(map[], {"x", "y"})) == Ordered(["x", "y"])
  {
    var ks, g := ["x", "y"], RawRecordsOf(map[], {"x", "y"});
    assert DiscardAllAsWritten(g, ks, []) == Some(g);
    TwoListRecordsRaise(ks, g, "x", "y");
    EmptySetsKeepKeyOrder(ks, Records(map[], {"x", "y"}));
  }
}

=== FILE: workspace.dfy ===
/**
  * The workspace of ic_dependencies.py: the packages present under `packages/`,
  * the registry of fetchable packages, the classification of every dependency
  * as missing (fetchable) or unknown (not in the registry), and the include
  * order computed from them.
  */
module IcDependencies {
  import opened Collections
  import opened Ordering

  /** Every dependency name of a package of `g` that is not itself a package of `g`. */
  ghost function NonKeyDeps(g: Graph): (r: set<string>)
    ensures r !! g.Keys
  {
    set p, d | p in g && d in g[p] && d !in g :: d
  }

  /** The same, restricted to the packages listed in `ps`. */
  ghost function NonKeyDepsOf(g: Graph, ps: seq<string>): set<string>
  {
    set p, d | p in ps && p in g && d in g[p] && d !in g :: d
  }

  /** Scanning one more package adds its dependencies that are not packages. */
  lemma NonKeyDepsOfStep(g: Graph, ps: seq<string>, i: nat)
    requires i < |ps| && ps[i] in g
    ensures NonKeyDepsOf(g, ps[..i + 1]) == NonKeyDepsOf(g, ps[..i]) + (g[ps[i]] - g.Keys)
  {
    assert forall q :: q in ps[..i + 1] <==> q in ps[..i] || q == ps[i];
  }

  /** Scanning every key finds every dependency that is not a package. */
  lemma NonKeyDepsOfAll(g: Graph, ks: seq<string>)
    requires KeyOrder(ks, g)
    ensures NonKeyDepsOf(g, ks[..|ks|]) == NonKeyDeps(g)
  {
    assert ks[..|ks|] == ks;
  }

  /** The dependencies the declaration file of `p` lists; none when `p` has no such file. */
  function Declared(files: map<string, set<string>>, p: string): set<string>
  {
    if p in files then files[p] else {}
  }

  /** The records `_read_package_deps` gives the packages `ks`. */
  function Records(files: map<string, set<string>>, ks: set<string>): (g: Graph)
    ensures g.Keys == ks
  {
    map p | p in ks :: Declared(files, p)
  }

  /**
    * A step of `Resolve` adds registry names only, and either adds one that was still to
    * fetch or leaves next missing names that are all still to fetch.
    */
  lemma ResolveStep(db: set<string>, ks: set<string>, m: set<string>, ks': set<string>, m': set<string>)
    requires m != {} && ks' == ks + m * db && m' <= db - ks'
    ensures |db - ks'| < |db - ks| || (|db - ks'| == |db - ks| && !(m <= db - ks))
  {
    if m <= db - ks {
      var w :| w in m;
      SubsetCard(db - ks', db - ks, w);
    } else {
      SubsetCard(db - ks', db - ks, "");
    }
  }

  /**
    * The packages the fetch loop of `add_packages` ends with, from packages `ks` with `m`
    * missing, when every registry name it needs can be cloned: each round adds the missing
    * registry names, and the registry names among the dependencies that are not packages
    * become the next missing names.
    */
  ghost function Resolve(db: set<string>, files: map<string, set<string>>, ks: set<string>, m: set<string>): set<string>
    decreases |db - ks|, if m <= db - ks then 0 else 1
  {
    if m == {} then ks
    else
      var ks' := ks + m * db;
      var m' := NonKeyDeps(Records(files, ks')) * db;
      ResolveStep(db, ks, m, ks', m');
      Resolve(db, files, ks', m')
  }

  /** The fetch keeps the packages, adds the missing registry names, and adds registry names only. */
  lemma {:induction false} ResolveBounds(db: set<string>, files: map<string, set<string>>, ks: set<string>, m: set<string>)
    ensures ks + m * db <= Resolve(db, files, ks, m) <= ks + db
    decreases |db - ks|, if m <= db - ks then 0 else 1
  {
    if m != {} {
      var ks' := ks + m * db;
      var m' := NonKeyDeps(Records(files, ks')) * db;
      ResolveStep(db, ks, m, ks', m');
      ResolveBounds(db, files, ks', m');
    }
  }

  /**
    * The fetch adds nothing the missing names do not need: every package set that holds `ks`,
    * the missing registry names, and every registry name its packages declare, holds the result.
    */
  lemma {:induction false} ResolveLeast(db: set<string>, files: map<string, set<string>>, ks: set<string>,
                                        m: set<string>, k: set<string>)
    requires ks + m * db <= k
    requires forall p :: p in k ==> Declared(files, p) * db <= k
    ensures Resolve(db, files, ks, m) <= k
    decreases |db - ks|, if m <= db - ks then 0 else 1
  {
    if m != {} {
      var ks' := ks + m * db;
      var m' := NonKeyDeps(Records(files, ks')) * db;
      ResolveStep(db, ks, m, ks', m');
      forall d | d in m'
        ensures d in k
      {
        var p :| p in ks' && d in Records(files, ks')[p];
      }
      ResolveLeast(db, files, ks', m', k);
    }
  }

  /** Once the loop has run, every registry name a package declares is a package. */
  lemma {:induction false} ResolveClosed(db: set<string>, files: map<string, set<string>>, ks: set<string>, m: set<string>)
    requires m != {}
    ensures NonKeyDeps(Records(files, Resolve(db, files, ks, m))) * db == {}
    decreases |db - ks|, if m <= db - ks then 0 else 1
  {
    var ks' := ks + m * db;
    var m' := NonKeyDeps(Records(files, ks')) * db;
    ResolveStep(db, ks, m, ks', m');
    if m' != {} {
      ResolveClosed(db, files, ks', m');
    }
  }

  /** The second component of the fetch loop's termination measure. */
  function Phase(db: set<string>, ks: set<string>, m: set<string>, e: set<string>): nat
  {
    if !(m - e <= db - ks) then 2 else if m != {} then 1 else 0
  }

  /**
    * One round of the fetch loop on sets, with `e` the names under `packages/` that are not
    * packages: it clones the missing registry names that do not exist, and its next missing
    * names are the registry names among the dependencies that are not packages. When the
    * loop is to end, the round keeps the final package set `r` and decreases the measure.
    */
  lemma FetchRoundResolve(db: set<string>, files: map<string, set<string>>, ks: set<string>, m: set<string>,
                          e: set<string>, r: set<string>, ks': set<string>, m': set<string>)
    requires Resolve(db, files, ks, m - e) == r
    requires (r + NonKeyDeps(Records(files, r)) * db) !! e
    requires ks !! e && m != {}
    requires NonKeyDeps(Records(files, ks)) * db <= m
    requires ks' == ks + (m * db - (ks + e))
    requires m' == NonKeyDeps(Records(files, ks')) * db
    ensures Resolve(db, files, ks', m' - e) == r
    ensures |db - ks'| < |db - ks| || (|db - ks'| == |db - ks| && Phase(db, ks', m', e) < Phase(db, ks, m, e))
  {
    CloneSetAlgebra(db, ks, m, e, ks');
    if m - e != {} {
      FetchRoundProductive(db, files, ks, m, e, r, ks', m');
    } else {
      FetchRoundIdle(db, files, ks, m, e, r, ks', m');
    }
  }

  /** The packages after a round: the old ones and the missing registry names not on disk. */
  lemma CloneSetAlgebra(db: set<string>, ks: set<string>, m: set<string>, e: set<string>, ks': set<string>)
    requires ks' == ks + (m * db - (ks + e))
    ensures ks' == ks + (m - e) * db
  {
  }

  /**
    * The case of `FetchRoundResolve` where every missing name exists under `packages/`: the
    * round clones nothing, and nothing is missing afterwards.
    */
  lemma FetchRoundIdle(db: set<string>, files: map<string, set<string>>, ks: set<string>, m: set<string>,
                       e: set<string>, r: set<string>, ks': set<string>, m': set<string>)
    requires m - e == {} && m != {} && Resolve(db, files, ks, m - e) == r
    requires NonKeyDeps(Records(files, r)) * db !! e
    requires NonKeyDeps(Records(files, ks)) * db <= m
    requires ks' == ks + (m - e) * db
    requires m' == NonKeyDeps(Records(files, ks')) * db
    ensures Resolve(db, files, ks', m' - e) == r
    ensures |db - ks'| == |db - ks| && Phase(db, ks', m', e) < Phase(db, ks, m, e)
  {
    assert ks' == ks;
    IdleRound(db, files, ks, m, e, r, m');
    assert m' - e == {};
    assert Phase(db, ks, m, e) == 1;
  }

  /** The set reasoning of `FetchRoundIdle`. */
  lemma IdleRound(db: set<string>, files: map<string, set<string>>, ks: set<string>, m: set<string>,
                  e: set<string>, r: set<string>, m': set<string>)
    requires m - e == {} && Resolve(db, files, ks, m - e) == r
    requires NonKeyDeps(Records(files, r)) * db !! e
    requires NonKeyDeps(Records(files, ks)) * db <= m
    requires m' == NonKeyDeps(Records(files, ks)) * db
    ensures r == ks && m' == {}
  {
    assert m <= e by {
      forall x | x in m
        ensures x in e
      {
        assert x !in m - e;
      }
    }
  }

  /** The case of `FetchRoundResolve` where the round has missing names that do not exist. */
  lemma FetchRoundProductive(db: set<string>, files: map<string, set<string>>, ks: set<string>, m: set<string>,
                             e: set<string>, r: set<string>, ks': set<string>, m': set<string>)
    requires m - e != {} && Resolve(db, files, ks, m - e) == r && r !! e
    requires ks' == ks + (m - e) * db
    requires m' == NonKeyDeps(Records(files, ks')) * db
    ensures Resolve(db, files, ks', m' - e) == r
    ensures |db - ks'| < |db - ks| || (|db - ks'| == |db - ks| && Phase(db, ks', m', e) < Phase(db, ks, m, e))
  {
    assert Resolve(db, files, ks', m') == r;
    ResolveBounds(db, files, ks', m');
    assert m' <= r;
    assert m' - e == m';
    ResolveStep(db, ks, m - e, ks', m');
  }

  /**
    * Packages only gain registry names and keep their records, so a dependency outside the
    * registry that is not a package stays one.
    */
  lemma NonKeyDepsGrow(db: set<string>, files: map<string, set<string>>, ks: set<string>, ks': set<string>)
    requires ks <= ks' <= ks + db
    ensures NonKeyDeps(Records(files, ks)) - db <= NonKeyDeps(Records(files, ks'))
  {
    forall d | d in NonKeyDeps(Records(files, ks)) - db
      ensures d in NonKeyDeps(Records(files, ks'))
    {
      var p :| p in ks && d in Records(files, ks)[p] && d !in ks;
      var g' := Records(files, ks');
      assert p in g' && d in g'[p] && d !in g';
    }
  }

  /**
    * Once a package declares a registry name `x` that exists under `packages/` without being
    * a package, a round of the fetch loop does not clone `x` and finds it missing again: the
    * loop never ends.
    */
  lemma FetchStuck(db: set<string>, files: map<string, set<string>>, ks: set<string>, m: set<string>,
                   e: set<string>, p: string, x: string)
    requires ks !! e && p in ks && x in Declared(files, p) && x in db && x in e
    ensures x !in ks + (m * db - (ks + e))
    ensures x in NonKeyDeps(Records(files, ks + (m * db - (ks + e)))) * db
  {
    assert x in Records(files, ks + (m * db - (ks + e)))[p];
  }

  /** A listing of the keys that extends another listing of the same keys is that listing. */
  lemma SameKeysSameOrder(ks: seq<string>, ks': seq<string>, g: Graph)
    requires KeyOrder(ks, g) && KeyOrder(ks', g) && ks <= ks'
    ensures ks == ks'
  {
    if ks' != [] {
      var i := |ks'| - 1;
      assert ks'[i] in g;
      var j :| 0 <= j < |ks| && ks[j] == ks'[i];
      assert ks'[j] == ks'[i];
      assert i < |ks|;
    }
  }

  /**
    * The sets the fetch loop keeps track of: the package names, the names under
    * `packages/`, the missing and unknown names, and the dependencies that are not packages.
    */
  datatype Sets = Sets(keys: set<string>, disk: set<string>, missing: set<string>, unknown: set<string>, deps: set<string>)

  /**
    * The bookkeeping of the fetch loop, from the sets `s0` it started with to the sets `s`
    * now, `e` being the names under `packages/` that are not packages. The packages exist
    * on disk and `e` stays the same; the packages gain registry names only, which are the
    * names the disk gains; and `unknown`, with the missing names outside the registry, is
    * what the loop ends with.
    */
  ghost predicate Tracked(db: set<string>, e: set<string>, s0: Sets, s: Sets)
  {
    && s.keys <= s.disk && s.disk - s.keys == e && s.disk == s0.disk + (s.keys - s0.keys)
    && s0.keys <= s.keys <= s0.keys + db
    && s.unknown + (s.missing - db) == s0.unknown + ((s0.missing + s.deps) - db)
  }

  /** The bookkeeping holds when the loop starts, every dependency that is not a package being classified. */
  lemma TrackedStart(db: set<string>, s0: Sets)
    requires s0.keys <= s0.disk && s0.deps <= s0.missing + s0.unknown
    ensures Tracked(db, s0.disk - s0.keys, s0, s0)
  {
    assert s0.keys - s0.keys == {};
  }

  /**
    * A round from `s1` to `s2` keeps the bookkeeping: it adds the missing registry names
    * not on disk, which then are on disk, and classifies the dependencies that are not
    * packages.
    */
  lemma FetchLoopStep(db: set<string>, e: set<string>, s0: Sets, s1: Sets, s2: Sets)
    requires Tracked(db, e, s0, s1)
    requires s2.keys == s1.keys + (s1.missing * db - s1.disk) && s2.disk == s1.disk + (s2.keys - s1.keys)
    requires s2.missing <= db && s2.unknown == s1.unknown + ((s1.missing + s2.deps) - db) && s1.deps - db <= s2.deps
    ensures Tracked(db, e, s0, s2)
    ensures s1.keys !! e && s2.keys == s1.keys + (s1.missing * db - (s1.keys + e))
  {
    assert s1.disk == s1.keys + e;
    assert s2.missing - db == {};
    assert s2.unknown == s1.unknown + (s1.missing - db) + (s2.deps - db);
    assert s1.unknown + (s1.missing - db) == s0.unknown + (s0.missing - db) + (s1.deps - db);
  }

  /** Once nothing is missing, the bookkeeping gives the unknown names and the disk the loop ends with. */
  lemma TrackedEnd(db: set<string>, e: set<string>, s0: Sets, s: Sets)
    requires Tracked(db, e, s0, s) && s.missing == {}
    ensures s.unknown == s0.unknown + ((s0.missing + s.deps) - db)
    ensures s.disk == s0.disk + (s.keys - s0.keys)
  {
    assert s.missing - db == {};
  }

  /**
    * After a fetch from packages `k0` that adds registry names only, the unknown names stay
    * off the packages when none of the names that were unknown or missing was a package.
    */
  lemma UnknownOffKeys(db: set<string>, k0: set<string>, k: set<string>, u0: set<string>, m0: set<string>,
                       n: set<string>, u: set<string>)
    requires u0 !! k0 && u0 !! db && m0 !! k0 && k <= k0 + db && n !! k
    requires u == u0 + ((m0 + n) - db)
    ensures u !! k
  {
  }

  /** A prefix of a prefix is a prefix. */
  lemma PrefixTrans(a: seq<string>, b: seq<string>, c: seq<string>)
    requires a <= b && b <= c
    ensures a <= c
  {
    assert a == c[..|a|];
  }

  class Workspace {
    /** The registry (`package_db`): name to repository locator, fixed once loaded. */
    const packageDb: map<string, string>
    /**
      * The dependency declaration each package directory holds, or will hold once
      * cloned; a name without an entry has no declaration file.
      */
    const depsFiles: map<string, set<string>>
    /**
      * The names that exist under `packages/`, directories or not: what `path.exists`
      * answers for a package's destination.
      */
    var onDisk: set<string>
    /** Package name to its declared dependencies. */
    var packages: Graph
    /** The keys of `packages` in dict insertion order. */
    var keyOrder: seq<string>
    var missing: set<string>
    var unknown: set<string>
    var includeOrder: seq<string>
    var circular: bool

    /**
      * `_read_package_deps`: the declared dependencies of `p`, or the empty set when
      * its declaration file does not exist.
      */
    function ReadDeps(p: string): set<string>
    {
      Declared(depsFiles, p)
    }

    /**
      * The keys are listed in insertion order, every package record is what its
      * declaration file says, and no registry name is ever unknown.
      */
    ghost predicate Valid()
      reads this`keyOrder, this`packages, this`unknown
    {
      && KeyOrder(keyOrder, packages)
      && (forall p :: p in packages ==> packages[p] == ReadDeps(p))
      && (forall u :: u in unknown ==> u !in packageDb)
    }

    /** The outcome of an ordering pass over the current records, unknown names discarded. */
    ghost function Pass(): Outcome
      reads this`keyOrder, this`packages, this`unknown
      requires Valid()
    {
      KeyOrderPrune(keyOrder, packages, unknown);
      TopoSort(keyOrder, Prune(packages, unknown))
    }

    /** Every dependency that is not a package is classified as missing or unknown. */
    ghost predicate Classified()
      reads this`packages, this`missing, this`unknown
    {
      forall d :: d in NonKeyDeps(packages) ==> d in missing || d in unknown
    }

    /**
      * `init`: loads the registry `db`, scans `packages/`, whose entries are `entries` and
      * whose directories are listed by `dirs`, and runs the first ordering pass.
      */
    constructor Init(db: map<string, string>, files: map<string, set<string>>, dirs: seq<string>, entries: set<string>)
      requires Elems(dirs) <= entries
      ensures packageDb == db && depsFiles == files
      ensures Valid() && Classified()
      ensures onDisk == entries && packages.Keys == Elems(dirs)
      ensures keyOrder == NewKeys(dirs, {})
      ensures missing == NonKeyDeps(packages) * db.Keys
      ensures unknown == NonKeyDeps(packages) - db.Keys
      ensures circular == Pass().Cyclic?
      ensures includeOrder == if Pass().Ordered? then Pass().order else []
    {
      packageDb := db;
      depsFiles := files;
      onDisk := entries;
      packages := map[];
      keyOrder := [];
      missing := {};
      unknown := {};
      includeOrder := [];
      circular := false;
      new;
      Scan(dirs);
      assert onDisk == entries && includeOrder == [];
      ghost var scanned := packages;
      Reorder();
      assert packages == scanned && onDisk == entries;
    }

    /**
      * `scan` on a fresh workspace: installs the directories `dirs` as packages and
      * classifies their dependencies.
      */
    method Scan(dirs: seq<string>)
      requires Valid() && packages == map[] && keyOrder == [] && missing == {} && unknown == {}
      modifies this`packages, this`keyOrder, this`missing, this`unknown
      ensures Valid() && Classified()
      ensures packages.Keys == Elems(dirs)
      ensures keyOrder == NewKeys(dirs, {})
      ensures missing == NonKeyDeps(packages) * packageDb.Keys
      ensures unknown == NonKeyDeps(packages) - packageDb.Keys
    {
      assert packages.Keys == {};
      UpdateDepsFor(dirs);
      assert [] + NewKeys(dirs, {}) == NewKeys(dirs, {});
      assert {} + NonKeyDeps(packages) == NonKeyDeps(packages);
    }

    /**
      * `_update_deps_for`: installs the declared dependencies of `names`, adds every
      * dependency that is not a package to `missing`, then moves the missing names
      * the registry does not know to `unknown`. Its three loops are the three
      * helpers below.
      */
    method UpdateDepsFor(names: seq<string>)
      requires Valid()
      modifies this`packages, this`keyOrder, this`missing, this`unknown
      ensures Valid() && Classified()
      ensures packages.Keys == old(packages).Keys + Elems(names)
      ensures forall p :: p in old(packages) ==> packages[p] == old(packages)[p]
      ensures keyOrder == old(keyOrder) + NewKeys(names, old(packages).Keys)
      ensures missing == (old(missing) + NonKeyDeps(packages)) * packageDb.Keys
      ensures unknown == old(unknown) + ((old(missing) + NonKeyDeps(packages)) - packageDb.Keys)
      ensures missing <= packageDb.Keys && missing !! unknown
    {
      InstallRecords(names);
      CollectMissing();
      MoveUnknown();
    }

    /** The first loop of `_update_deps_for`: records the declared dependencies of each name. */
    method InstallRecords(names: seq<string>)
      requires Valid()
      modifies this`packages, this`keyOrder
      ensures Valid()
      ensures packages.Keys == old(packages).Keys + Elems(names)
      ensures keyOrder == old(keyOrder) + NewKeys(names, old(packages).Keys)
    {
      ghost var known, order0 := packages.Keys, keyOrder;
      assert forall x :: x in order0 <==> x in known;
      for i := 0 to |names|
        invariant Valid()
        invariant keyOrder == order0 + NewKeys(names[..i], known)
      {
        var p := names[i];
        NewKeysPrefix(names, i, known);
        NewKeysSpec(names[..i], known);
        ghost var added := NewKeys(names[..i], known);
        assert p in packages <==> p in known || p in added;
        InstallRecord(p);
        assert (order0 + added) + [p] == order0 + (added + [p]);
      }
      assert names[..|names|] == names;
      NewKeysSpec(names, known);
      assert forall x :: x in packages <==> x in known || x in names;
    }

    /** One assignment `packages[p] = ...`: a new key goes to the end of the key order. */
    method InstallRecord(p: string)
      requires Valid()
      modifies this`packages, this`keyOrder
      ensures Valid()
      ensures forall x :: x in packages <==> x in old(packages) || x == p
      ensures keyOrder == if p in old(packages) then old(keyOrder) else old(keyOrder) + [p]
    {
      KeyOrderAssign(keyOrder, packages, p, ReadDeps(p));
      if p !in packages {
        keyOrder := keyOrder + [p];
      }
      packages := packages[p := ReadDeps(p)];
    }

    /** The second loop of `_update_deps_for`: every dependency that is not a package becomes missing. */
    method CollectMissing()
      requires KeyOrder(keyOrder, packages)
      modifies this`missing
      ensures missing == old(missing) + NonKeyDeps(packages)
    {
      for i := 0 to |keyOrder|
        invariant missing == old(missing) + NonKeyDepsOf(packages, keyOrder[..i])
      {
        var p := keyOrder[i];
        var ds := packages[p];
        ghost var scanned := missing;
        while ds != {}
          invariant ds <= packages[p]
          invariant missing == scanned + ((packages[p] - ds) - packages.Keys)
          decreases ds
        {
          var d :| d in ds;
          if d !in packages {
            missing := missing + {d};
          }
          ds := ds - {d};
        }
        NonKeyDepsOfStep(packages, keyOrder, i);
      }
      NonKeyDepsOfAll(packages, keyOrder);
    }

    /** The last two loops of `_update_deps_for`: missing names outside the registry move to unknown. */
    method MoveUnknown()
      modifies this`missing, this`unknown
      ensures missing == old(missing) * packageDb.Keys
      ensures unknown == old(unknown) + (old(missing) - packageDb.Keys)
    {
      var rm: set<string> := {};
      var ms := missing;
      while ms != {}
        modifies this`unknown
        invariant ms <= missing == old(missing)
        invariant rm == (missing - ms) - packageDb.Keys
        invariant unknown == old(unknown) + rm
        decreases ms
      {
        var m :| m in ms;
        if m !in packageDb {
          unknown := unknown + {m};
          rm := rm + {m};
        }
        ms := ms - {m};
      }
      assert rm == old(missing) - packageDb.Keys;
      var rs := rm;
      while rs != {}
        modifies this`missing
        invariant rs <= rm
        invariant missing == old(missing) - (rm - rs)
        decreases rs
      {
        var m :| m in rs;
        missing := missing - {m};
        rs := rs - {m};
      }
      assert rm - rs == rm;
    }

    /**
      * `_clone_packages`: skips the names the registry does not know; clones every
      * other name whose directory does not exist yet; drops every registry name
      * from `missing`. Returns the names it cloned.
      */
    method ClonePackages(names: seq<string>) returns (cloned: set<string>)
      modifies this`onDisk, this`missing
      ensures cloned == (Elems(names) * packageDb.Keys) - old(onDisk)
      ensures onDisk == old(onDisk) + cloned
      ensures missing == old(missing) - Elems(names) * packageDb.Keys
    {
      cloned := {};
      for i := 0 to |names|
        invariant cloned == (Elems(names[..i]) * packageDb.Keys) - old(onDisk)
        invariant onDisk == old(onDisk) + cloned
        invariant missing == old(missing) - Elems(names[..i]) * packageDb.Keys
      {
        var p := names[i];
        ElemsPrefix(names, i);
        if p !in packageDb {
          continue;
        }
        if p !in onDisk {
          // cloning the registry entry creates the directory
          onDisk := onDisk + {p};
          cloned := cloned + {p};
        }
        missing := missing - {p};
      }
      assert names[..|names|] == names;
    }

    /**
      * `_build_graph`: discards the unknown names from every dependency set, then
      * repeatedly takes the first package, in insertion order, whose set is empty;
      * reports a cycle when no package is ready.
      */
    method BuildGraph() returns (r: Outcome)
      requires Valid()
      ensures r == TopoSort(keyOrder, Prune(packages, unknown))
      ensures r.Ordered? ==> IsBuildOrder(r.order, Prune(packages, unknown))
    {
      // Works on values, so nothing is shared with `packages`: the source's dict
      // copy is shallow and its discards also empty the sets stored in `packages`
      // (see Ordering.Leftover).
      var g := DiscardAll(packages, keyOrder, unknown);
      KeyOrderPrune(keyOrder, packages, unknown);
      r := Sort(keyOrder, g);
      TopoSortSound(keyOrder, g);
    }

    /**
      * The ordering step of `init` and `add_packages`: on success the new order
      * replaces the include order; on a cycle only the flag is raised.
      */
    method Reorder()
      requires Valid()
      modifies this`includeOrder, this`circular
      ensures Valid() && (old(Classified()) ==> Classified())
      ensures circular == Pass().Cyclic?
      ensures includeOrder == if Pass().Ordered? then Pass().order else old(includeOrder)
      ensures !circular ==> IsBuildOrder(includeOrder, Prune(packages, unknown))
    {
      var r := BuildGraph();
      match r
      case Ordered(order) =>
        includeOrder := order;
        circular := false;
      case Cyclic =>
        circular := true;
    }

    /**
      * The condition under which the fetch loop, started with `m` missing, ends: the packages
      * it reaches, and the registry names they declare, never exist under `packages/` without
      * being packages. Otherwise the loop runs for ever (see FetchStuck).
      */
    ghost predicate FetchEnds(m: set<string>)
      reads this`packages, this`onDisk
    {
      var e := onDisk - packages.Keys;
      var r := Resolve(packageDb.Keys, depsFiles, packages.Keys, m - e);
      (r + NonKeyDeps(Records(depsFiles, r)) * packageDb.Keys) !! e
    }

    /** Under `Valid`, each record is what `Records` reads from the declaration files. */
    lemma ValidRecords()
      requires Valid()
      ensures packages == Records(depsFiles, packages.Keys)
    {
    }

    /**
      * One round of the loop in `add_packages`: clones the missing registry names that do
      * not exist yet and records the dependencies of the ones it cloned. The next missing
      * names are the registry names among the dependencies that are not packages, and
      * `unknown` gains the other names that were missing or became dependencies.
      */
    method FetchRound()
      requires Valid() && Classified() && packages.Keys <= onDisk && missing != {}
      modifies this`onDisk, this`packages, this`keyOrder, this`missing, this`unknown
      ensures Valid() && Classified() && packages.Keys <= onDisk
      ensures packages.Keys == old(packages).Keys + (old(missing) * packageDb.Keys - old(onDisk))
      ensures onDisk == old(onDisk) + (packages.Keys - old(packages).Keys)
      ensures missing == NonKeyDeps(packages) * packageDb.Keys
      ensures unknown == old(unknown) + ((old(missing) + NonKeyDeps(packages)) - packageDb.Keys)
      ensures old(keyOrder) <= keyOrder
    {
      ghost var m, ko := missing, keyOrder;
      var batch := Enumerate(missing);
      var cloned := ClonePackages(batch);
      var fetched := Enumerate(cloned);
      UpdateDepsFor(fetched);
      assert ko <= keyOrder;
      assert (m - m * packageDb.Keys) * packageDb.Keys == {};
    }

    /**
      * `add_packages`: fetches the requested names and everything they need, then
      * reorders.
      */
    method AddPackages(requested: seq<string>)
      requires Valid() && Classified() && packages.Keys <= onDisk
      requires FetchEnds(missing + Elems(requested))
      modifies this`onDisk, this`packages, this`keyOrder, this`missing, this`unknown
      modifies this`includeOrder, this`circular
      ensures Valid() && Classified() && packages.Keys <= onDisk
      ensures missing == {}
      ensures packages.Keys == Resolve(packageDb.Keys, depsFiles, old(packages).Keys,
                                       (old(missing) + Elems(requested)) - old(onDisk - packages.Keys))
      ensures onDisk == old(onDisk) + (packages.Keys - old(packages).Keys)
      ensures unknown == old(unknown) + ((old(missing) + Elems(requested) + NonKeyDeps(packages)) - packageDb.Keys)
      ensures NonKeyDeps(packages) <= unknown
      ensures old(keyOrder) <= keyOrder
      ensures old(missing) == {} && requested == [] ==>
                packages == old(packages) && keyOrder == old(keyOrder) && unknown == old(unknown)
      ensures circular == Pass().Cyclic?
      ensures includeOrder == if Pass().Ordered? then Pass().order else old(includeOrder)
      ensures !circular ==> IsBuildOrder(includeOrder, Prune(packages, unknown))
    {
      MarkMissing(requested);
      FetchMissing();
      Reorder();
    }

    /**
      * `add_packages` as evidently intended: names that are already packages are not
      * requested again. No unknown name is then a package, and a successful pass orders
      * every dependency that is a package before its dependent.
      */
    method AddNewPackages(requested: seq<string>)
      requires Valid() && Classified() && packages.Keys <= onDisk
      requires unknown !! packages.Keys && missing !! packages.Keys
      requires FetchEnds(missing + (Elems(requested) - packages.Keys))
      modifies this`onDisk, this`packages, this`keyOrder, this`missing, this`unknown
      modifies this`includeOrder, this`circular
      ensures Valid() && Classified() && packages.Keys <= onDisk
      ensures missing == {} && unknown !! packages.Keys
      ensures old(packages).Keys <= packages.Keys
      ensures circular == Pass().Cyclic?
      ensures !circular ==> PackageOrder(includeOrder, packages)
    {
      ghost var db := packageDb.Keys;
      MarkNewMissing(requested);
      ghost var k0, u0, m0, e := packages.Keys, unknown, missing, onDisk - packages.Keys;
      assert u0 !! db;
      FetchMissing();
      ResolveBounds(db, depsFiles, k0, m0 - e);
      UnknownOffKeys(db, k0, packages.Keys, u0, m0, NonKeyDeps(packages), unknown);
      Reorder();
      if !circular {
        BuildOrderOfPruned(includeOrder, packages, unknown);
      }
    }

    /** The first loop of `add_packages`, corrected: only names that are not packages become missing. */
    method MarkNewMissing(requested: seq<string>)
      modifies this`missing
      ensures missing == old(missing) + (Elems(requested) - packages.Keys)
    {
      for i := 0 to |requested|
        invariant missing == old(missing) + (Elems(requested[..i]) - packages.Keys)
      {
        ElemsPrefix(requested, i);
        if requested[i] !in packages {
          missing := missing + {requested[i]};
        }
      }
      assert requested[..|requested|] == requested;
    }

    /** The first loop of `add_packages`: every requested name becomes missing. */
    method MarkMissing(requested: seq<string>)
      modifies this`missing
      ensures missing == old(missing) + Elems(requested)
    {
      for i := 0 to |requested|
        invariant missing == old(missing) + Elems(requested[..i])
      {
        ElemsPrefix(requested, i);
        missing := missing + {requested[i]};
      }
      assert requested[..|requested|] == requested;
    }

    /**
      * The second loop of `add_packages`: clones and re-classifies until nothing is
      * missing. The packages it ends with are those `Resolve` reaches; the names that were
      * missing or are dependencies outside the registry end up unknown; with nothing
      * missing to begin with, nothing changes.
      */
    method FetchMissing()
      requires Valid() && Classified() && packages.Keys <= onDisk
      requires FetchEnds(missing)
      modifies this`onDisk, this`packages, this`keyOrder, this`missing, this`unknown
      ensures Valid() && Classified() && packages.Keys <= onDisk
      ensures missing == {}
      ensures packages.Keys == Resolve(packageDb.Keys, depsFiles, old(packages).Keys, old(missing) - old(onDisk - packages.Keys))
      ensures onDisk == old(onDisk) + (packages.Keys - old(packages).Keys)
      ensures unknown == old(unknown) + ((old(missing) + NonKeyDeps(packages)) - packageDb.Keys)
      ensures NonKeyDeps(packages) <= unknown
      ensures old(keyOrder) <= keyOrder
      ensures old(missing) == {} ==> packages == old(packages) && keyOrder == old(keyOrder) && unknown == old(unknown)
    {
      ghost var db := packageDb.Keys;
      ghost var keys0, missing0, unknown0, order0 := packages.Keys, missing, unknown, keyOrder;
      ghost var packages0, n0 := packages, NonKeyDeps(packages);
      ghost var e := onDisk - packages.Keys;
      ghost var r := Resolve(db, depsFiles, keys0, missing0 - e);
      FetchLoop(e, r);
      if missing0 == {} {
        assert missing0 - e == {};
        ValidRecords();
        assert packages == packages0;
        SameKeysSameOrder(order0, keyOrder, packages);
        assert unknown == unknown0;
      }
    }

    /**
      * The loop of `FetchMissing`, given `e`, the names under `packages/` that are not
      * packages, and `r`, the packages `Resolve` reaches from the state it starts in.
      */
    method FetchLoop(ghost e: set<string>, ghost r: set<string>)
      requires Valid() && Classified() && packages.Keys <= onDisk
      requires onDisk - packages.Keys == e
      requires Resolve(packageDb.Keys, depsFiles, packages.Keys, missing - e) == r
      requires (r + NonKeyDeps(Records(depsFiles, r)) * packageDb.Keys) !! e
      modifies this`onDisk, this`packages, this`keyOrder, this`missing, this`unknown
      ensures Valid() && Classified() && packages.Keys <= onDisk
      ensures missing == {} && packages.Keys == r
      ensures onDisk == old(onDisk) + (packages.Keys - old(packages).Keys)
      ensures unknown == old(unknown) + ((old(missing) + NonKeyDeps(packages)) - packageDb.Keys)
      ensures old(keyOrder) <= keyOrder
    {
      ghost var db := packageDb.Keys;
      ghost var s0, order0 := Snap(), keyOrder;
      ClassifiedCovered();
      TrackedStart(db, s0);
      while missing != {}
        invariant Valid() && Classified() && Tracked(db, e, s0, Snap())
        invariant Resolve(db, depsFiles, packages.Keys, missing - e) == r
        invariant order0 <= keyOrder
        decreases |db - packages.Keys|, Phase(db, packages.Keys, missing, e)
      {
        TrackedRound(e, r, s0, order0);
      }
      assert missing - e == {};
      TrackedEnd(db, e, s0, Snap());
    }

    /**
      * One iteration of the loop in `FetchMissing`: a round, with what the loop keeps track
      * of (`e` the names under `packages/` that are not packages, `r` the packages the loop
      * ends with) carried over and the termination measure decreased.
      */
    method TrackedRound(ghost e: set<string>, ghost r: set<string>, ghost s0: Sets, ghost order0: seq<string>)
      requires Valid() && Classified() && missing != {} && Tracked(packageDb.Keys, e, s0, Snap())
      requires Resolve(packageDb.Keys, depsFiles, packages.Keys, missing - e) == r
      requires (r + NonKeyDeps(Records(depsFiles, r)) * packageDb.Keys) !! e
      requires order0 <= keyOrder
      modifies this`onDisk, this`packages, this`keyOrder, this`missing, this`unknown
      ensures Valid() && Classified() && Tracked(packageDb.Keys, e, s0, Snap())
      ensures Resolve(packageDb.Keys, depsFiles, packages.Keys, missing - e) == r
      ensures order0 <= keyOrder
      ensures || |packageDb.Keys - packages.Keys| < |packageDb.Keys - old(packages).Keys|
              || (&& |packageDb.Keys - packages.Keys| == |packageDb.Keys - old(packages).Keys|
                  && Phase(packageDb.Keys, packages.Keys, missing, e) < Phase(packageDb.Keys, old(packages).Keys, old(missing), e))
    {
      ghost var db := packageDb.Keys;
      ghost var s1, o1 := Snap(), keyOrder;
      ValidRecords();
      ClassifiedMissing();
      FetchRound();
      ValidRecords();
      ghost var s2 := Snap();
      NonKeyDepsGrow(db, depsFiles, s1.keys, s2.keys);
      FetchLoopStep(db, e, s0, s1, s2);
      FetchRoundResolve(db, depsFiles, s1.keys, s1.missing, e, r, s2.keys, s2.missing);
      PrefixTrans(order0, o1, keyOrder);
    }

    /** The sets the fetch loop keeps track of, in the current state. */
    ghost function Snap(): Sets
      reads this`packages, this`onDisk, this`missing, this`unknown
    {
      Sets(packages.Keys, onDisk, missing, unknown, NonKeyDeps(packages))
    }

    /** Under `Classified`, every dependency that is not a package is missing or unknown. */
    lemma ClassifiedCovered()
      requires Classified()
      ensures NonKeyDeps(packages) <= missing + unknown
    {
    }

    /** Under `Valid` and `Classified`, every registry name among the dependencies that are not packages is missing. */
    lemma ClassifiedMissing()
      requires Valid() && Classified()
      ensures NonKeyDeps(packages) * packageDb.Keys <= missing
    {
    }
  }

  /**
    * What `init` reads in the run below: directories b and a, b declaring a and a
    * declaring x. Only x is a registry name; once cloned, x declares nothing.
    */
  lemma RequestedPackageScan(a: string, b: string, x: string)
    requires a != b && a != x && b != x
    ensures Elems([b, a]) == {a, b} && Elems([a]) == {a}
    ensures NewKeys([b, a], {}) == [b, a]
    ensures Records(map[b := {a}, a := {x}, x := {}], {a, b}) == map[b := {a}, a := {x}]
    ensures NonKeyDeps(map[b := {a}, a := {x}]) == {x}
  {
    assert [b, a][..1] == [b] && [b][..0] == [];
    assert NewKeys([b], {}) == [b];
    var r := Records(map[b := {a}, a := {x}, x := {}], {a, b});
    assert r.Keys == {a, b} && r[a] == {x} && r[b] == {a};
    var g := map[b := {a}, a := {x}];
    assert x in g[a] && x !in g;
  }

  /** The first pass of the run below: x is missing, so a never becomes ready. */
  lemma RequestedPackageInitPass(a: string, b: string, x: string)
    requires a != b && a != x && b != x
    ensures KeyOrder([b, a], Prune(map[b := {a}, a := {x}], {}))
    ensures TopoSort([b, a], Prune(map[b := {a}, a := {x}], {})) == Cyclic
  {
    var g := Prune(map[b := {a}, a := {x}], {});
    assert g.Keys == {a, b} && g[a] == {x} && g[b] == {a};
    DanglingDependencyIsCyclic([b, a], g, a, x);
  }

  /** The fetch of the run below clones x and nothing else, and leaves nothing to classify. */
  lemma RequestedPackageFetch(a: string, b: string, x: string)
    requires a != b && a != x && b != x
    ensures var r := Records(map[b := {a}, a := {x}, x := {}], {a, b, x});
            r[b] == {a} && r[a] == {x} && r[x] == {} && NonKeyDeps(r) == {}
    ensures Resolve({x}, map[b := {a}, a := {x}, x := {}], {a, b}, {a, x}) == {a, b, x}
  {
    var files := map[b := {a}, a := {x}, x := {}];
    var r := Records(files, {a, b, x});
    assert r.Keys == {a, b, x} && r[a] == {x} && r[b] == {a} && r[x] == {};
    assert {a, b} + {a, x} * {x} == {a, b, x};
    assert NonKeyDeps(r) * {x} == {};
    assert Resolve({x}, files, {a, b, x}, {}) == {a, b, x};
  }

  /** After the fetch of the run below, the key order is b, a, then the cloned x. */
  lemma RequestedPackageKeyOrder(a: string, b: string, x: string, ko: seq<string>, g: Graph)
    requires a != b && a != x && b != x
    requires g.Keys == {a, b, x} && KeyOrder(ko, g) && [b, a] <= ko
    ensures ko == [b, a, x]
  {
    assert x in ko;
    var j :| 0 <= j < |ko| && ko[j] == x;
    assert ko[2] in g && ko[2] != ko[0] && ko[2] != ko[1];
    assert ko[..3] == [b, a, x];
    SameKeysSameOrder([b, a, x], ko, g);
  }

  /**
    * The last pass of the run below, on records where b declares nothing left, a declares
    * x and x nothing: b is ready first, then x, then a.
    */
  lemma RequestedPackagePass(a: string, b: string, x: string, h: Graph)
    requires a != b && a != x && b != x
    requires h.Keys == {a, b, x} && h[b] == {} && h[a] == {x} && h[x] == {}
    ensures KeyOrder([b, a, x], h)
    ensures TopoSort([b, a, x], h) == Ordered([b, x, a])
  {
    RequestedPackageFirstStep(a, b, x, h);
    PassAfterDependency(x, a, Without(h, b));
    assert [b] + [x, a] == [b, x, a];
  }

  /** The first step of that pass picks b, which leaves a declaring x and x nothing. */
  lemma RequestedPackageFirstStep(a: string, b: string, x: string, h: Graph)
    requires a != b && a != x && b != x
    requires h.Keys == {a, b, x} && h[b] == {} && h[a] == {x} && h[x] == {}
    ensures KeyOrder([b, a, x], h)
    ensures TopoSort([b, a, x], h) == Prepend([b], TopoSort([a, x], Without(h, b)))
    ensures Without(h, b).Keys == {x, a} && Without(h, b)[a] == {x} && Without(h, b)[x] == {}
  {
    var ks := [b, a, x];
    assert FirstReady(ks, h) == 0;
    assert RemoveAt(ks, 0) == [a, x];
    KeyOrderWithout(ks, h, 0);
    assert {x} - {b} == {x};
  }

  /**
    * A pass over p and then d, where p declares d and d declares nothing: d is ordered
    * first.
    */
  lemma PassAfterDependency(d: string, p: string, h: Graph)
    requires d != p && h.Keys == {d, p} && h[p] == {d} && h[d] == {}
    ensures KeyOrder([p, d], h)
    ensures TopoSort([p, d], h) == Ordered([d, p])
  {
    assert [p, d][1..] == [d];
    assert FirstReady([p, d], h) == 1;
    assert RemoveAt([p, d], 1) == [p];
    KeyOrderWithout([p, d], h, 1);
    var h1 := Without(h, d);
    assert h1.Keys == {p} && h1[p] == {};
    EmptySetsKeepKeyOrder([p], h1);
    assert TopoSort([p, d], h) == Prepend([d], Ordered([p]));
  }

  /** Without the request nothing is discarded, and the last pass orders x, a, b. */
  lemma UnrequestedPackagePass(a: string, b: string, x: string, h: Graph)
    requires a != b && a != x && b != x
    requires h.Keys == {a, b, x} && h[b] == {a} && h[a] == {x} && h[x] == {}
    ensures KeyOrder([b, a, x], h)
    ensures TopoSort([b, a, x], h) == Ordered([x, a, b])
  {
    var ks := [b, a, x];
    assert ks[1..] == [a, x] && [a, x][1..] == [x];
    assert FirstReady([x], h) == 0 && FirstReady([a, x], h) == 1;
    assert FirstReady(ks, h) == 2;
    assert RemoveAt(ks, 2) == [b, a];
    KeyOrderWithout(ks, h, 2);
    var h1 := Without(h, x);
    assert h1.Keys == {a, b} && h1[b] == {a} && h1[a] == {};
    PassAfterDependency(a, b, h1);
    assert TopoSort(ks, h) == Prepend([x], Ordered([a, b]));
  }

  /** A build order of the records of the run below never places b before a. */
  lemma RequestedPackageMisordered(a: string, b: string, x: string, g: Graph)
    requires a != b && a != x && b != x
    requires g.Keys == {a, b, x} && g[b] == {a}
    ensures !PackageOrder([b, x, a], g)
  {
    assert a in g[b] && a !in [b, x, a][..0];
  }

  /** `init` over the directories b and a of the run below, with the registry {x}. */
  method RequestedPackageInit(a: string, b: string, x: string, url: string) returns (w: Workspace)
    requires a != b && a != x && b != x
    ensures fresh(w) && w.Valid() && w.Classified() && w.packages.Keys <= w.onDisk
    ensures w.packageDb == map[x := url] && w.depsFiles == map[b := {a}, a := {x}, x := {}]
    ensures w.packages == map[b := {a}, a := {x}] && w.keyOrder == [b, a]
    ensures w.missing == {x} && w.unknown == {} && w.onDisk == {a, b}
    ensures w.circular && w.includeOrder == []
  {
    RequestedPackageScan(a, b, x);
    RequestedPackageInitPass(a, b, x);
    w := new Workspace.Init(map[x := url], map[b := {a}, a := {x}, x := {}], [b, a], {a, b});
    w.ValidRecords();
    assert map[x := url].Keys == {x};
  }

  /** `init` and then `add_packages([a])` over the directories of the run below. */
  method RequestedPackageAdded(a: string, b: string, x: string, url: string) returns (w: Workspace)
    requires a != b && a != x && b != x
    ensures w.Valid() && w.packages.Keys == {a, b, x}
    ensures w.packages[b] == {a} && w.packages[a] == {x} && w.packages[x] == {}
    ensures w.keyOrder == [b, a, x] && w.unknown == {a}
    ensures w.circular == w.Pass().Cyclic?
    ensures w.includeOrder == if w.Pass().Ordered? then w.Pass().order else []
  {
    RequestedPackageFetch(a, b, x);
    ghost var g := map[b := {a}, a := {x}, x := {}];
    w := RequestedPackageInit(a, b, x, url);
    assert w.onDisk - w.packages.Keys == {} && Elems([a]) == {a};
    ghost var k0, m0 := w.packages.Keys, (w.missing + Elems([a])) - (w.onDisk - w.packages.Keys);
    assert k0 == {a, b} && m0 == {a, x} && w.packageDb.Keys == {x};
    w.AddPackages([a]);
    assert w.packages.Keys == Resolve({x}, g, k0, m0);
    w.ValidRecords();
    RequestedPackageKeyOrder(a, b, x, w.keyOrder, w.packages);
    assert NonKeyDeps(w.packages) == {};
    assert w.unknown == {} + (({x} + {a} + {}) - {x});
  }

  /**
    * Directories b and a, b declaring a and a declaring x, the registry {x}, and a
    * declaration file for x that lists nothing; then `add_packages([a])`. The first pass
    * reports a cycle, as x is missing. The request marks the package a missing; the fetch
    * clones x but skips a, which the registry does not know, so a becomes unknown and is
    * discarded from b's record: the pass orders b before its dependency a. Without the
    * request the pass would order x, a, b (UnrequestedPackagePass).
    */
  method RequestedPackageBecomesUnknown(a: string, b: string, x: string, url: string) returns (w: Workspace)
    requires a != b && a != x && b != x
    ensures a in w.packages && a in w.unknown && !w.circular
    ensures w.includeOrder == [b, x, a] && !PackageOrder(w.includeOrder, w.packages)
  {
    w := RequestedPackageAdded(a, b, x, url);
    assert {a} - {a} == {} && {x} - {a} == {x};
    ghost var h := Prune(w.packages, w.unknown);
    assert h.Keys == {a, b, x} && h[b] == {} && h[a] == {x} && h[x] == {};
    RequestedPackagePass(a, b, x, h);
    RequestedPackageMisordered(a, b, x, w.packages);
  }
}
